=== FILE: README.md ===
# CodeCapsule snippet vault — a Dafny model

CodeCapsule is a desktop snippet manager. It keeps code snippets as plain
files in a *vault*: a directory whose sub-directories are folders (also
called projects). Each folder holds snippet files and a `metadata.json`
sidecar. The sidecar maps a snippet's file name to its tags and code type.

The repository has two front ends over the same vault:

- `main.py` is the card window. It has a folder bar whose entries are
  `"📁 " + name`, a column of snippet cards for the selected folder, and an
  editor pane that saves on every change.
- `demo.py` is an earlier tree-and-table window. It has a tree of projects
  with their files, a table of the selected project's snippets, and a save
  button.

This project models the data logic under both front ends. The file system
is a pair of immutable maps: folder name to folder, and file name to body
plus the sidecar. Every handler is a pure function from state to state,
and the properties the code relies on are proved about those functions.

| file | module | contents |
|---|---|---|
| `wrappers.dfy` | `Wrappers` | `Option` and `Result` |
| `strings.dfy` | `Strings` | Python's `str.strip`, `str.split`, `str.join` and `str.replace(p, "")` on `seq<char>` |
| `tags.dfy` | `Tags` | the tag field's text codec, shared by both windows |
| `store.dfy` | `Store` | vault, folder and sidecar; lenient and strict reads; upsert; listings |
| `editor.dfy` | `Editor` | the editor pane: text, tag field and code-type combo box |
| `seed.dfy` | `Seed` | the example vault created on first start |
| `capsule.dfy` | `Capsule` | the handlers of `main.py` |
| `manager.dfy` | `Manager` | the handlers of `demo.py` |

Directory listings have no fixed order, so every listing is a parameter.
Lemmas about a listing assume `Lists(listing, names)`: each name appears
exactly once and nothing else appears. A sidecar is `Absent`, `Corrupt`
(present but not valid JSON) or `Valid(entries)`. An entry's fields
are optional, because `.get("tags", [])` and `.get("code_type", "txt")`
default each field on its own.

The two windows read the sidecar differently, and the model follows the
code in both:

- `main.py` catches the decode error and reads an unparseable sidecar as
  `{}`. Its next save therefore replaces the sidecar with the one saved
  entry, and every other entry is lost. That loss looks unintended, but
  it is what the code does, so the model keeps it and states it
  (`Capsule.SaveOverCorrupt`).
- `demo.py` has no such handler. An unparseable sidecar raises, so the
  model returns an error outcome. On save, the file body has already been
  written when the error is raised.

## Model

| member | source | states |
|---|---|---|
| Strings.LStrip | main.py:410 | `str.lstrip()`: a suffix of the input, preceded only by whitespace and not starting with whitespace |
| Strings.RStrip | main.py:410 | `str.rstrip()`: a prefix of the input, followed only by whitespace and not ending with whitespace |
| Strings.Strip | main.py:410 | `str.strip()`: the result is no longer than the input and has no whitespace at either end (whitespace as in `str.isspace`) |
| Strings.StripInfix | main.py:410 | `str.strip()` returns the infix that starts where `str.lstrip()` starts, with only whitespace before and after it |
| Strings.StripKeepsAbsent | main.py:410 | stripping only removes characters, so a character absent before is absent after |
| Strings.StripLeadingSpace | main.py:410 | a leading whitespace character never changes the result of `str.strip()` |
| Strings.StripFixedPoint | main.py:410 | stripping leaves a string unchanged exactly when it is already trimmed |
| Strings.Split | main.py:410 | `str.split(",")`: there is at least one field, and no field contains the separator |
| Strings.SplitCount | main.py:410 | a split has one field per separator plus one |
| Strings.SplitField | main.py:410 | splitting a separator-free field, a separator and a rest gives that field in front of the split of the rest |
| Strings.SplitJoin | main.py:388-410 | splitting the join of one or more separator-free fields gives back the same fields |
| Strings.JoinSplit | main.py:388-410 | joining the fields of a split with the same separator gives back the string |
| Strings.Join | main.py:388 | `sep.join(parts)`: no parts give the empty text, and otherwise the text starts with the first part |
| Strings.DeleteAll | main.py:313 | `str.replace(p, "")` is never longer than the input |
| Strings.DeleteAllLength | main.py:313 | removing every occurrence of a non-empty pattern shortens the text exactly when the pattern occurs, and returns the text unchanged exactly when it does not occur |
| Strings.JoinCount | main.py:388 | a character occurs in a join as often as in the parts, plus once per separator for each separator character |
| Strings.DeleteAllShrinks | main.py:313 | `replace(p, "")` makes the string strictly shorter whenever `p` occurs in it |
| Strings.DeleteAllAbsent | main.py:313 | `replace(p, "")` leaves a string without an occurrence of `p` unchanged |
| Tags.StripAll | main.py:410 | one tag per field, each the corresponding field stripped |
| Tags.StripAllTrims | main.py:410 | every stripped field has no whitespace at either end |
| Tags.Parse | main.py:410 | every parsed tag is trimmed and has no comma |
| Tags.Display | main.py:388 | no tags are shown as the empty text; otherwise the shown text holds the commas of the tags plus one per separator |
| Tags.ParseCount | main.py:410 | the tag field yields one tag per comma plus one, and the empty field yields `[""]` |
| Tags.ParseLeadingSpace | main.py:410 | whitespace in front of the tag field does not change the tags read |
| Tags.ParseField | main.py:410 | a comma-free field followed by a comma reads as that field stripped, in front of the tags of the rest |
| Tags.ParseDisplay | main.py:388-410 | reading back the shown text of comma-free tags gives each tag stripped |
| Tags.DisplayEmpty | main.py:388-410 | the empty tag list is shown as `""`, which reads back as `[""]`, not `[]` |
| Tags.CommaFree | main.py:388-410 | when the shown text has one comma fewer than there are tags, no tag holds a comma |
| Tags.NormalRoundTrip | main.py:388-410 | tags that are at least one, trimmed and comma-free survive showing and reading back |
| Tags.DisplayParseRoundTrip | main.py:388-410 | showing tags and reading them back gives the same list exactly when there is at least one tag and each tag is trimmed and comma-free |
| Tags.ParseStable | main.py:388-410 | after one save and reopen, the tag field reads back to the same tags |
| Store.Lookup | main.py:387-389 | a file with no entry gets `[]` and `"txt"`; each present field is returned as stored, and each missing field gets its own default |
| Store.LoadLenient | main.py:340-347 | an absent or unparseable sidecar reads as the empty map, and a parsed one reads as its entries |
| Store.LoadStrict | demo.py:140 | the read fails exactly when the sidecar is unparseable, with `CorruptMetadata`; an absent sidecar reads as the empty map |
| Store.MetaOf | demo.py:164-165 | the sidecar of a project that is gone reads as absent |
| Store.Upsert | main.py:411 | the saved name's entry is replaced as a whole, every other key keeps its entry, and no key is dropped |
| Store.LookupUpsert | main.py:411 | the entry just written reads back unchanged |
| Store.LookupUpsertOther | main.py:411 | writing one entry leaves what every other name reads unchanged |
| Store.ReadSnippet | main.py:373-378 | the read succeeds exactly when the folder and the file exist, returns the body, and otherwise reports `NotFound` |
| Store.Save | main.py:397-414 | the file gets the text and is created if missing, other files are unchanged, the sidecar becomes the upserted map, and the sidecar never becomes a snippet file |
| Store.ListsNothing | demo.py:127-133 | the only listing of an empty directory is the empty listing |
| Store.SnippetNames | main.py:349-352 | the snippet list never contains `metadata.json` |
| Store.SnippetNamesCount | main.py:349-352 | the snippet list holds every entry of the listing except `metadata.json`, as often as the listing holds it |
| Store.SnippetNamesCons | main.py:349-352 | the snippet list of a listing is that of its first entry, if it is not the sidecar, in front of that of the rest |
| Store.SnippetNamesAppend | main.py:351-357 | the snippet list follows listing order: the list of a concatenation is the concatenation of the lists |
| Store.SnippetListingExact | main.py:349-357 | for a listing of a folder, the snippet list names every snippet file exactly once and nothing else |
| Store.FolderNames | main.py:181-183 | the folder list keeps a root entry exactly when it is a folder, as often as listed |
| Store.FolderNamesAppend | main.py:181-184 | the folder list follows listing order |
| Store.FolderListingExact | main.py:181-184 | for a listing of the root, the folder list names every folder exactly once and no plain file |
| Editor.SelectCodeType | main.py:389 | `setCurrentText` on the combo box selects the wanted text exactly when it is one of the items, and otherwise keeps the current one |
| Editor.ShowBody | main.py:373-378 | the text area shows the body, or the not-found text when the file cannot be read |
| Editor.Open | main.py:375-390 | opening shows the text and `", ".join` of the tags, makes the pane editable, shows the code type if the combo box has it, and keeps the combo box valid |
| Editor.Edited | main.py:410-411 | the saved entry's tags are the parsed tag field, and its code type is one of the combo box items |
| Seed.ExampleVault | main.py:286-307 | the example vault has the two projects and no plain file; every sidecar key names a snippet file of its project, and every entry has both fields with a known code type |
| Capsule.Labels | main.py:184 | the entries are the folder names behind the icon, in order |
| Capsule.LabelMatch | main.py:184 | an entry is the label of a name exactly when it starts with the icon and the name follows it |
| Capsule.LabelInjective | main.py:184 | two folders never share a folder bar entry |
| Capsule.LabelsCount | main.py:181-184 | an entry appears as often as its name appears in the folder list, and only entries with the icon appear |
| Capsule.FolderLabelsExact | main.py:179-184 | for a listing of the root, the folder bar has an entry for a name exactly when it is a folder, no duplicates, and the icon on every entry |
| Capsule.LabelRoundTrip | main.py:184-313 | selecting a folder's entry gives back its name exactly when the name does not contain the icon and space |
| Capsule.Label | main.py:184 | a folder bar entry is the icon and space followed by exactly the folder name |
| Capsule.FolderLabels | main.py:179-184 | one entry per listed folder, each the icon and space followed by the name of a folder of the vault |
| Capsule.NameOfLabel | main.py:313 | removing the icon and space shortens an entry exactly when the entry contains them, and leaves any other entry as it is |
| Capsule.CreateNewFolder | main.py:189-197 | a cancelled dialog, an empty name or a name that exists changes nothing; otherwise exactly one empty folder with `{}` as sidecar is added, and every existing folder is kept |
| Capsule.CreatedFolderListed | main.py:189-198 | a created folder is in the folder bar, has no snippets, and reads as the empty map under both reads |
| Capsule.OnNewFolder | main.py:186-321 | a refused name changes nothing; a created folder is added to the vault, and when the bar is not empty the first bar entry is selected: its name becomes the project, the pane is blanked, no file stays open, and the cards become the snippet files of the listing in listing order when the project exists |
| Capsule.NewFolderSelectsFirst | main.py:179-321 | after a creation the bar is not empty, a project is selected, the pane is blank with no file open, and the project is the first listed folder when its name lacks the icon |
| Capsule.UpdateSnippetList | main.py:327-357 | the cards of a missing project are cleared; otherwise they are the listing in its order without the sidecar, so each name of the listing other than the sidecar appears as often as in the listing |
| Capsule.CardsExact | main.py:349-357 | for a listing of the selected folder, the cards are its snippet files, each once |
| Capsule.OnFolderChanged | main.py:310-321 | selecting an entry makes the name behind it the project, blanks the pane, closes the open file, keeps the vault, and shows one card per snippet file of the listing when the project exists |
| Capsule.SelectFolder | main.py:313-314 | selecting the entry of a folder whose name lacks the icon makes that folder the project |
| Capsule.OnSnippetClicked | main.py:366-391 | the pane shows the file or the not-found text, the tags and code type of its leniently read entry, becomes editable and remembers the file; without a project nothing happens |
| Capsule.SaveVault | main.py:397-416 | a save only writes the selected folder; a missing project takes no write |
| Capsule.OnTextChanged | main.py:393-417 | a change saves only with an open file and a project; the save writes the pane's text and the edited entry; the pane and selection are kept, and the cards become the snippet files of the listing |
| Capsule.SaveEffect | main.py:397-414 | after a save, the file holds the pane's text; its entry is the parsed tags with the combo box's code type; every other file and entry reads as before |
| Capsule.SaveOverCorrupt | main.py:402-414 | a save over an unparseable sidecar leaves a sidecar holding only the saved entry |
| Capsule.SaveAgain | main.py:397-414 | saving a folder again with the same text and entry, over the sidecar the first save wrote, changes nothing |
| Capsule.SaveVaultTwice | main.py:397-416 | writing the same text and entry into the vault a second time changes nothing |
| Capsule.SaveIdempotent | main.py:393-417 | saving twice without touching the pane is the same as saving once |
| Capsule.SaveThenReopen | main.py:366-417 | reopening a saved file shows the same text, a tag field that reads back to the same tags, and the same code type |
| Capsule.CreateNewSnippet | main.py:419-428 | nothing happens without a project, on cancel, on an empty name or a name already in the folder; no folder is added or removed; after a creation the cards are refreshed to the snippet files of the listing, in listing order |
| Capsule.CreatedSnippetListed | main.py:423-428 | a created snippet is one new empty file; for a listing of the folder the cards are its snippet files, each once, the new one among them; nothing else changes |
| Capsule.CreateSnippetNamedSidecar | main.py:423-427 | naming a new snippet `metadata.json` in a folder without a sidecar creates an empty sidecar that no longer parses, and leaves the folder's snippet files and every other folder as they were |
| Capsule.SetupDefaultFolder | main.py:281-307 | an existing default folder is kept; a missing one becomes the example vault with `demo_project1` and `demo_project2` |
| Manager.Projects | demo.py:114-124 | each tree node is the corresponding folder name, with that folder's listing minus the sidecar below it |
| Manager.TreeExact | demo.py:108-124 | for listings of the root and of each folder, the tree has exactly one node per folder with distinct names, and below each node exactly that folder's snippet files |
| Manager.PopulateTree | demo.py:108-124 | one node per listed folder, each a folder of the vault whose children are the snippet files of that folder's listing |
| Manager.TreeNames | demo.py:112-118 | for a listing of the root, a name is a node of the tree exactly when it is a folder of the vault |
| Manager.TreeDistinct | demo.py:112-118 | for a listing of the root, no two nodes of the tree have the same name |
| Manager.TreeChildren | demo.py:114-123 | each node is a folder, and the names below it are its snippet files, each once |
| Manager.SelectedProject | demo.py:127-133 | a selected item counts as a project exactly when it is a project node with children |
| Manager.EmptyFolderNeverSelected | demo.py:127-135 | a folder without snippet files, or any snippet item, never becomes the project through the tree |
| Manager.Rows | demo.py:146-151 | each row is the file, `", ".join` of its tags, and its code type, with defaults for a file without an entry |
| Manager.SnippetTable | demo.py:137-151 | a missing project fails with `NotFound` and an unparseable sidecar with `CorruptMetadata`; otherwise the table is listed and holds no sidecar row |
| Manager.RowFiles | demo.py:151 | the file column, row by row |
| Manager.TableExact | demo.py:137-151 | for a listing of the project, the table names each snippet file once, with its stored tags and code type, or `""` and `"txt"` without an entry |
| Manager.PopulateSnippetTable | demo.py:137-151 | a raised error is the one the strict table read fails with: a missing project raises `NotFound` and empties the table, an unparseable sidecar raises `CorruptMetadata` and leaves the table as it was; on success the table is the project's snippet rows; the rest of the state is kept |
| Manager.OnTreeSelectionChanged | demo.py:127-135 | selecting an item with children makes it the project and refills the table exactly as `populate_snippet_table` does for that project; any other selection changes nothing |
| Manager.SelectFillsTable | demo.py:127-151 | selecting a folder with a readable sidecar makes it the project and fills the table with each of its snippet files once |
| Manager.OnSnippetSelectionChanged | demo.py:153-169 | the pane shows the file or the not-found text; it raises `CorruptMetadata` exactly when the sidecar is unparseable, after only the text was set; otherwise it opens the file's entry |
| Manager.StrictSave | demo.py:176-183 | the file gets the text; an unparseable sidecar raises and is left as it is, otherwise it gets the entry upserted; no other folder changes |
| Manager.StrictSaveEffect | demo.py:176-183 | with a readable sidecar, the file holds the text, its entry reads back as saved, and other files and entries read as before |
| Manager.StrictSaveIdempotent | demo.py:176-183 | saving the same text and entry twice is the same as once |
| Manager.OnSave | demo.py:171-184 | without a row nothing happens; a missing project raises `NotFound` and changes nothing; otherwise it saves strictly, and after a successful save the table is refilled as `populate_snippet_table` does; on an unparseable sidecar it keeps the table |
| Manager.SaveEffect | demo.py:177-183 | after the save button, the file holds the pane's text; its entry is the parsed tags with the combo box's code type; every other file and entry reads as before |
| Manager.SaveOverCorrupt | demo.py:176-180 | a save over an unparseable sidecar raises after writing the file, and leaves the sidecar as it was |
| Manager.SaveIdempotent | demo.py:171-184 | pressing save again on the same file's row changes nothing |
| Manager.SaveThenReselect | demo.py:153-184 | selecting the saved file's row shows the same text, a tag field that reads back to the same tags, and the same code type |
| Manager.SetupDefaultFolder | demo.py:76-105 | an existing default folder is kept; a missing one becomes the example vault with `project1` and `project2` |

## Left out

- Widget construction, styling, layouts, the library and tag side lists, and the card widgets are presentation without data logic.
- Signal re-entrancy is left out: each handler is modelled on its own, and the save that the text area's `textChanged` signal runs from inside another handler is not. The toolkit runs that save synchronously, inside `setText`, so the two lines below name what the program does beyond the model.
- Capsule.OnSnippetClicked: in the program, `setText` at main.py:375 runs `on_text_changed` while the open file is still the previous one, because the open file changes only at main.py:391. The clicked file's text is then written into the previously open file, with the old tag field and code type as its entry. The contract's `r.vault == s.vault` therefore holds in the program only when no file was open.
- Capsule.OnFolderChanged: in the program, `setText("")` at main.py:317 runs `on_text_changed` after the project has changed at main.py:314 but while the old file is still open. It writes the empty text into a file of the old name in the new project, creating it if needed, and writes that name's entry into the new project's sidecar. The contract's `r.vault == s.vault` therefore holds in the program only when no file was open.
- Editor.Open: the pane shows the body exactly as read. In the program, `setText` guesses rich text, so a body such as `<b>x</b>` is shown as `x`. `toPlainText` turns U+00A0 into a space. The text-mode reads at main.py:374 and demo.py:160 turn `"\r\n"` into `"\n"`. Capsule.SaveThenReopen and Manager.SaveThenReselect therefore hold for the modelled pane, and in the program only for bodies that these conversions leave unchanged.
- Capsule.CreateNewFolder: the names `"."` and `".."` are not modelled. The program resolves them to existing directories, so it creates nothing for them, while the model adds a folder of that name.
- Capsule.CreateNewSnippet: a snippet named `"."` or `".."` is not modelled. The program finds an existing directory under that name and creates nothing, while the model adds a snippet file.
- Capsule.NameOfLabel: a folder bar entry that becomes `"."`, `".."` or empty once every icon and space is removed, such as the entry of a folder named `📁 .`, is not modelled. Such a name makes the program's project the vault root or its parent, which the model has no folder for.
- The automatic opening of the first card after a refresh is left out. Whether it happens depends on Qt's deferred widget deletion and on layout stretch items.
- The directory watcher, the remembered vault path in the settings store, and the open-folder dialog are toolkit-owned or asynchronous.
- The card's modification-time label is left out, because it depends on the clock.
- JSON text encoding is left out. The sidecar is an abstract map with an unparseable state.
- A sidecar that parses but is not an object, and a tag value that is not a list of strings, are not modelled.
- File I/O failures other than a missing folder or file, such as permissions or a full disk, and text encodings are not modelled.
- Folder and file names that contain path separators are not modelled, so `os.makedirs` never creates nested directories here. Sub-directories inside a folder are not modelled either.
- Store.ReadSnippet: requires a name other than `metadata.json`, because every caller takes names from listings that drop it.
- Store.Save: requires a name other than `metadata.json`, for the same reason.
- Capsule.OnSnippetClicked: requires a name other than `metadata.json`, because cards never show the sidecar.
- Capsule.OnTextChanged: requires that the open file is not `metadata.json`, because only card names can become the open file.
- Manager.OnSnippetSelectionChanged: requires a state whose table holds no sidecar row and belongs to a selected project, because only `populate_snippet_table` fills the table.
- Manager.OnSave: requires the same well-formed state, for the same reason.
- Manager.SaveIdempotent: assumes the refreshed table still has the same file at the selected row, because the listing order of the refreshed table is not fixed.
- Manager.SaveThenReselect: takes the row of the saved file in the refreshed table as a parameter, for the same reason.
- Manager.PopulateTree: the listing of each folder is a parameter `listDir`.
- Whitespace is `str.isspace` on single code points. No Unicode normalisation is modelled.
- `md2img.py`, `left.py`, `left——紧密.py` and `layout.py` are static layout experiments or wrappers around external libraries, and are not part of this model.

=== FILE: capsule.dfy ===
/** The data logic of the card-based window (`main.py`): a folder bar that
    labels every folder with a folder icon, a column of snippet cards for
    the selected folder, and an editor pane that saves on every change. */
module Capsule {
  import opened Wrappers
  import opened Strings
  import opened Tags
  import opened Store
  import opened Editor
  import opened Seed

  /** The folder icon and space in front of every folder bar entry. */
  const FolderIcon: string := "\U{1F4C1} "

  /** The folder bar entry of a folder. */
  function Label(name: string): (r: string)
    ensures |r| == |FolderIcon| + |name|
    ensures FolderIcon <= r && r[|FolderIcon|..] == name
  {
    FolderIcon + name
  }

  /** The folder bar entries for a list of folder names. */
  function Labels(names: seq<string>): (r: seq<string>)
    ensures |r| == |names|
    ensures forall i :: 0 <= i < |r| ==> r[i] == Label(names[i])
    decreases |names|
  {
    if |names| == 0 then [] else [Label(names[0])] + Labels(names[1..])
  }

  /** The folder bar: the root entries that are directories, in listing
      order, each behind the folder icon. */
  function FolderLabels(v: Vault, listing: seq<string>): (r: seq<string>)
    ensures |r| == |FolderNames(v, listing)|
    ensures forall i :: 0 <= i < |r| ==> FolderIcon <= r[i] && r[i][|FolderIcon|..] in v.folders
  {
    Labels(FolderNames(v, listing))
  }

  /** Two folders never share a folder bar entry. */
  lemma LabelInjective(a: string, b: string)
    requires Label(a) == Label(b)
    ensures a == b
  {
    assert a == Label(a)[|FolderIcon|..];
  }

  /** A folder bar entry is the label of exactly the name behind the icon. */
  lemma LabelMatch(name: string, x: string)
    ensures Label(name) == x <==> FolderIcon <= x && name == x[|FolderIcon|..]
  {
    if Label(name) == x {
      assert x[|FolderIcon|..] == name;
    }
    if FolderIcon <= x && name == x[|FolderIcon|..] {
      assert x == FolderIcon + x[|FolderIcon|..];
    }
  }

  /** The folder bar shows a name as often as the names list holds it. */
  lemma {:induction false} LabelsCount(names: seq<string>, x: string)
    ensures multiset(Labels(names))[x]
            == if FolderIcon <= x then multiset(names)[x[|FolderIcon|..]] else 0
    decreases |names|
  {
    if |names| > 0 {
      var rest := names[1..];
      LabelsCount(rest, x);
      LabelMatch(names[0], x);
      HeadTail(names);
      assert Labels(names) == [Label(names[0])] + Labels(rest);
    }
  }

  /** For a listing of the vault root, the folder bar holds one entry per
      folder and no other entry. */
  lemma FolderLabelsExact(v: Vault, listing: seq<string>)
    requires Lists(listing, RootNames(v))
    ensures forall n :: Label(n) in FolderLabels(v, listing) <==> n in v.folders
    ensures NoDuplicates(FolderLabels(v, listing))
    ensures forall x :: x in FolderLabels(v, listing) ==> FolderIcon <= x
  {
    var names := FolderNames(v, listing);
    var labels := FolderLabels(v, listing);
    FolderListingExact(v, listing);
    forall x
      ensures multiset(labels)[x] <= 1
      ensures x in labels ==> FolderIcon <= x
    {
      LabelsCount(names, x);
    }
    forall n
      ensures Label(n) in labels <==> n in v.folders
    {
      LabelsCount(names, Label(n));
      assert Label(n)[|FolderIcon|..] == n;
      assert n in names <==> multiset(names)[n] > 0;
    }
  }

  /** The folder name a selected folder bar entry stands for: the entry
      with every occurrence of the icon and space deleted. */
  function NameOfLabel(entry: string): (r: string)
    ensures Occurs(entry, FolderIcon) <==> |r| < |entry|
    ensures !Occurs(entry, FolderIcon) ==> r == entry
  {
    DeleteAllLength(entry, FolderIcon);
    DeleteAll(entry, FolderIcon)
  }

  /** Selecting a folder bar entry gives back the folder's own name exactly
      when that name does not itself contain the icon and space. */
  lemma LabelRoundTrip(name: string)
    ensures NameOfLabel(Label(name)) == name <==> !Occurs(name, FolderIcon)
  {
    var s := Label(name);
    assert FolderIcon <= s;
    assert s[|FolderIcon|..] == name;
    assert NameOfLabel(s) == DeleteAll(name, FolderIcon);
    DeleteAllLength(name, FolderIcon);
  }

  /** The state of the window that the handlers read and write. */
  datatype State = State(
    vault: Vault,
    project: Option<string>,
    currentFile: Option<string>,
    cards: seq<string>,
    pane: Pane)

  /** The window never edits or lists the sidecar, and its combo box only
      shows its own items. */
  predicate Wf(s: State) {
    && VaultWf(s.vault)
    && s.currentFile != Some(MetadataName)
    && MetadataName !in s.cards
    && PaneWf(s.pane)
  }

  /** The new-folder button: nothing happens when the dialog is cancelled,
      the name is empty or the name is taken by any root entry; otherwise
      one new folder appears, with no snippets and `{}` as its sidecar. */
  function CreateNewFolder(v: Vault, name: string, ok: bool): (r: Vault)
    ensures !ok || name == "" || RootHas(v, name) ==> r == v
    ensures ok && name != "" && !RootHas(v, name) ==>
              && r.folders.Keys == v.folders.Keys + {name}
              && r.folders[name] == EmptyFolder
    ensures r.plainFiles == v.plainFiles
    ensures forall n :: n in v.folders ==> n in r.folders && r.folders[n] == v.folders[n]
    ensures VaultWf(v) ==> VaultWf(r)
  {
    if ok && name != "" && !RootHas(v, name) then
      v.(folders := v.folders[name := EmptyFolder])
    else
      v
  }

  /** A created folder shows up in the folder bar of any listing of the new
      root, and reads as an empty metadata map with no snippet. */
  lemma CreatedFolderListed(v: Vault, name: string, listing: seq<string>)
    requires name != "" && !RootHas(v, name)
    requires Lists(listing, RootNames(CreateNewFolder(v, name, true)))
    ensures Label(name) in FolderLabels(CreateNewFolder(v, name, true), listing)
    ensures LoadLenient(CreateNewFolder(v, name, true).folders[name].meta) == map[]
    ensures LoadStrict(CreateNewFolder(v, name, true).folders[name].meta) == Success(map[])
    ensures CreateNewFolder(v, name, true).folders[name].files == map[]
  {
    FolderLabelsExact(CreateNewFolder(v, name, true), listing);
  }

  /** Whether the selected project is a folder of the vault
      (`os.path.exists` on the project path). */
  predicate HasProject(s: State) {
    s.project.Some? && s.project.value in s.vault.folders
  }

  /** Refreshing the snippet cards: the cards of a missing project are
      cleared; otherwise they are the folder listing minus the sidecar. */
  function UpdateSnippetList(s: State, listing: seq<string>): (r: State)
    ensures r.vault == s.vault && r.project == s.project
    ensures r.currentFile == s.currentFile && r.pane == s.pane
    ensures !HasProject(s) ==> r.cards == []
    ensures HasProject(s) ==> r.cards == SnippetNames(listing)
    ensures HasProject(s) ==> multiset(r.cards) == multiset(listing)[MetadataName := 0]
    ensures Wf(s) ==> Wf(r)
  {
    SnippetNamesCount(listing);
    if HasProject(s) then s.(cards := SnippetNames(listing)) else s.(cards := [])
  }

  /** For a listing of the selected folder, the cards are its snippet files,
      each exactly once. */
  lemma CardsExact(s: State, listing: seq<string>)
    requires Wf(s) && HasProject(s)
    requires Lists(listing, EntryNames(s.vault.folders[s.project.value]))
    ensures Lists(UpdateSnippetList(s, listing).cards, s.vault.folders[s.project.value].files.Keys)
  {
    SnippetListingExact(s.vault.folders[s.project.value], listing);
  }

  /** The new-folder button as the window runs it: after a creation the
      folder bar is rebuilt from `rootListing` and its first entry is
      selected, which makes that folder the project, closes the open file,
      blanks the pane and refreshes the cards from `listing`.  A refused
      name changes nothing. */
  function OnNewFolder(s: State, name: string, ok: bool, rootListing: seq<string>,
                       listing: seq<string>): (r: State)
    ensures !ok || name == "" || RootHas(s.vault, name) ==> r == s
    ensures ok && name != "" && !RootHas(s.vault, name) ==>
              && r.vault == CreateNewFolder(s.vault, name, true)
              && (|FolderLabels(r.vault, rootListing)| > 0 ==>
                    && r.project == Some(NameOfLabel(FolderLabels(r.vault, rootListing)[0]))
                    && r.currentFile.None? && r.pane == Blank
                    && r.cards == if HasProject(r) then SnippetNames(listing) else [])
    ensures Wf(s) ==> Wf(r)
  {
    if !ok || name == "" || RootHas(s.vault, name) then s
    else
      var v := CreateNewFolder(s.vault, name, true);
      var labels := FolderLabels(v, rootListing);
      OnFolderChanged(s.(vault := v), if |labels| > 0 then Some(labels[0]) else None, listing)
  }

  /** After a creation the first folder of the new root listing becomes the
      project (the new folder itself only when it is listed first), with
      the pane blanked and no file open. */
  lemma NewFolderSelectsFirst(s: State, name: string, rootListing: seq<string>, listing: seq<string>)
    requires name != "" && !RootHas(s.vault, name)
    requires Lists(rootListing, RootNames(CreateNewFolder(s.vault, name, true)))
    ensures var v := CreateNewFolder(s.vault, name, true);
            var names := FolderNames(v, rootListing);
            var r := OnNewFolder(s, name, true, rootListing, listing);
            && |names| > 0
            && r.project.Some? && r.currentFile.None? && r.pane == Blank
            && (!Occurs(names[0], FolderIcon) ==> r.project == Some(names[0]))
  {
    var v := CreateNewFolder(s.vault, name, true);
    var names := FolderNames(v, rootListing);
    FolderLabelsExact(v, rootListing);
    assert |FolderLabels(v, rootListing)| > 0;
    if !Occurs(names[0], FolderIcon) {
      LabelRoundTrip(names[0]);
    }
  }

  /** Selecting a folder bar entry: the project becomes the name behind the
      entry, the pane is blanked, no file is open and the cards are
      refreshed. */
  function OnFolderChanged(s: State, selected: Option<string>, listing: seq<string>): (r: State)
    ensures selected.None? ==> r == s
    ensures selected.Some? ==>
              && r.project == Some(NameOfLabel(selected.value))
              && r.currentFile.None?
              && r.pane == Blank
              && r.vault == s.vault
              && r.cards == if HasProject(r) then SnippetNames(listing) else []
    ensures Wf(s) ==> Wf(r)
  {
    if selected.None? then s
    else
      var name := NameOfLabel(selected.value);
      UpdateSnippetList(s.(project := Some(name), currentFile := None, pane := Blank), listing)
  }

  /** Selecting the entry of a folder whose name lacks the icon makes that
      folder the project. */
  lemma SelectFolder(s: State, name: string, listing: seq<string>)
    requires !Occurs(name, FolderIcon)
    ensures OnFolderChanged(s, Some(Label(name)), listing).project == Some(name)
  {
    LabelRoundTrip(name);
  }

  /** Clicking a snippet card: the pane shows the file (or the not-found
      text), the tags and code type of its entry in the leniently read
      sidecar, becomes editable and remembers the file.  Without a project
      nothing happens. */
  function OnSnippetClicked(s: State, filename: string): (r: State)
    requires filename != MetadataName
    ensures s.project.None? ==> r == s
    ensures s.project.Some? ==>
              var p := s.project.value;
              && r.vault == s.vault && r.project == s.project && r.cards == s.cards
              && r.currentFile == Some(filename)
              && r.pane == Open(s.pane, ShowBody(ReadSnippet(s.vault, p, filename)),
                                Lookup(LoadLenient(MetaOf(s.vault, p)), filename))
    ensures Wf(s) ==> Wf(r)
  {
    if s.project.None? then s
    else
      var p := s.project.value;
      var entry := Lookup(LoadLenient(MetaOf(s.vault, p)), filename);
      s.(pane := Open(s.pane, ShowBody(ReadSnippet(s.vault, p, filename)), entry),
         currentFile := Some(filename))
  }

  /** Whether a text change saves: a file is open (a non-empty name) and a
      project is selected. */
  predicate Saves(s: State) {
    s.currentFile.Some? && s.currentFile.value != "" && s.project.Some?
  }

  /** The write half of a save into project `p`: the file `name` gets
      `text` and the sidecar, read leniently, gets the entry of `name`
      replaced by `e`.  A project that is not a folder takes no write (both
      writes raise and are caught). */
  function SaveVault(v: Vault, p: string, name: string, text: string, e: Entry): (r: Vault)
    requires name != MetadataName
    ensures r.plainFiles == v.plainFiles && r.folders.Keys == v.folders.Keys
    ensures forall q :: q in v.folders && q != p ==> r.folders[q] == v.folders[q]
    ensures VaultWf(v) ==> VaultWf(r)
  {
    if p in v.folders then
      var f := v.folders[p];
      v.(folders := v.folders[p := Save(f, name, text, LoadLenient(f.meta), e)])
    else v
  }

  /** Every edit of the text area saves: the open file of the selected
      project is written as by `SaveVault`, then the cards are refreshed. */
  function OnTextChanged(s: State, listing: seq<string>): (r: State)
    requires s.currentFile != Some(MetadataName)
    ensures !Saves(s) ==> r == s
    ensures Saves(s) ==> r.project == s.project && r.currentFile == s.currentFile && r.pane == s.pane
    ensures Saves(s) ==> r.vault == SaveVault(s.vault, s.project.value, s.currentFile.value, s.pane.text, Edited(s.pane))
    ensures Saves(s) ==> r.cards == if HasProject(r) then SnippetNames(listing) else []
    ensures Wf(s) ==> Wf(r)
  {
    if !Saves(s) then s
    else
      var v := SaveVault(s.vault, s.project.value, s.currentFile.value, s.pane.text, Edited(s.pane));
      UpdateSnippetList(s.(vault := v), listing)
  }

  /** What a save does to the open file's folder: the file holds the pane's
      text; its entry reads back as the parsed tags and the combo box's code
      type; every other file and every other entry reads as before. */
  lemma SaveEffect(v: Vault, p: string, name: string, pane: Pane)
    requires name != MetadataName && p in v.folders
    ensures var before := v.folders[p];
            var after := SaveVault(v, p, name, pane.text, Edited(pane)).folders[p];
            && after.files[name] == pane.text
            && (forall k :: k in before.files && k != name ==> after.files[k] == before.files[k])
            && after.meta.Valid?
            && Lookup(after.meta.entries, name) == Entry(Parse(pane.tagsText), pane.codeType)
            && (forall k :: k != name ==> Lookup(after.meta.entries, k) == Lookup(LoadLenient(before.meta), k))
  {
    var loaded := LoadLenient(v.folders[p].meta);
    LookupUpsert(loaded, name, Edited(pane));
    forall k | k != name
      ensures Lookup(Upsert(loaded, name, Edited(pane)), k) == Lookup(loaded, k)
    {
      LookupUpsertOther(loaded, name, Edited(pane), k);
    }
  }

  /** An unparseable sidecar is read as `{}` and overwritten: after the save
      it holds the saved file's entry only. */
  lemma SaveOverCorrupt(v: Vault, p: string, name: string, text: string, e: Entry)
    requires name != MetadataName && p in v.folders && v.folders[p].meta.Corrupt?
    ensures SaveVault(v, p, name, text, e).folders[p].meta == Valid(map[name := Stored(e)])
  {
  }

  /** Saving a folder again with the same text and entry, over the sidecar
      the first save wrote, changes nothing. */
  lemma SaveAgain(f: Folder, name: string, text: string, loaded: MetadataMap, e: Entry)
    requires name != MetadataName
    ensures var g := Save(f, name, text, loaded, e);
            Save(g, name, text, g.meta.entries, e) == g
  {
    var g := Save(f, name, text, loaded, e);
    assert g.files[name := text] == g.files;
    assert g.meta.entries[name := Stored(e)] == g.meta.entries;
  }

  /** Writing the same text and entry a second time changes nothing. */
  lemma SaveVaultTwice(v: Vault, p: string, name: string, text: string, e: Entry)
    requires name != MetadataName
    ensures SaveVault(SaveVault(v, p, name, text, e), p, name, text, e) == SaveVault(v, p, name, text, e)
  {
    if p in v.folders {
      var w := SaveVault(v, p, name, text, e);
      var f := w.folders[p];
      SaveAgain(v.folders[p], name, text, LoadLenient(v.folders[p].meta), e);
      assert Save(f, name, text, LoadLenient(f.meta), e) == f;
      assert w.folders[p := f] == w.folders;
    }
  }

  /** Refreshing the cards twice from the same listing is refreshing once. */
  lemma RefreshTwice(s: State, listing: seq<string>)
    ensures UpdateSnippetList(UpdateSnippetList(s, listing), listing) == UpdateSnippetList(s, listing)
  {
  }

  /** Saving twice without touching the pane is the same as saving once. */
  lemma SaveIdempotent(s: State, listing: seq<string>)
    requires Wf(s)
    ensures OnTextChanged(OnTextChanged(s, listing), listing) == OnTextChanged(s, listing)
  {
    if Saves(s) {
      var v1 := SaveVault(s.vault, s.project.value, s.currentFile.value, s.pane.text, Edited(s.pane));
      SaveVaultTwice(s.vault, s.project.value, s.currentFile.value, s.pane.text, Edited(s.pane));
      var s1 := OnTextChanged(s, listing);
      assert s1 == UpdateSnippetList(s.(vault := v1), listing);
      assert s1.(vault := v1) == s1;
      RefreshTwice(s.(vault := v1), listing);
    }
  }

  /** Reopening a saved file shows what was saved: the same text, a tag
      field that reads back to the same tags, and the same code type. */
  lemma SaveThenReopen(s: State, listing: seq<string>)
    requires Wf(s) && Saves(s) && HasProject(s)
    ensures var r := OnSnippetClicked(OnTextChanged(s, listing), s.currentFile.value);
            && r.pane.text == s.pane.text
            && Parse(r.pane.tagsText) == Parse(s.pane.tagsText)
            && r.pane.codeType == s.pane.codeType
            && !r.pane.readOnly
  {
    SaveEffect(s.vault, s.project.value, s.currentFile.value, s.pane);
    ParseStable(s.pane.tagsText);
  }

  /** The new-snippet button: nothing happens without a project, when the
      dialog is cancelled, when the name is empty or already taken in the
      folder, or when the project is no longer a folder (the write raises).
      Otherwise one empty file is created and the cards are refreshed. */
  function CreateNewSnippet(s: State, filename: string, ok: bool, listing: seq<string>): (r: State)
    ensures s.project.None? || !ok || filename == "" || !HasProject(s) ==> r == s
    ensures HasProject(s) && FolderHas(s.vault.folders[s.project.value], filename) ==> r == s
    ensures r.project == s.project && r.currentFile == s.currentFile && r.pane == s.pane
    ensures r.vault.plainFiles == s.vault.plainFiles && r.vault.folders.Keys == s.vault.folders.Keys
    ensures HasProject(s) && ok && filename != "" && !FolderHas(s.vault.folders[s.project.value], filename) ==>
              r.cards == SnippetNames(listing)
    ensures Wf(s) ==> Wf(r)
  {
    if s.project.None? || !ok || filename == "" || !HasProject(s) then s
    else
      var p := s.project.value;
      var f := s.vault.folders[p];
      if FolderHas(f, filename) then s
      else
        var f' := if filename == MetadataName then f.(meta := Corrupt)
                  else f.(files := f.files[filename := ""]);
        UpdateSnippetList(s.(vault := s.vault.(folders := s.vault.folders[p := f'])), listing)
  }

  /** A created snippet is one new empty file; for a listing of the folder
      the cards are its snippet files, each once, the new one among them;
      nothing else in the vault changes. */
  lemma CreatedSnippetListed(s: State, filename: string, listing: seq<string>)
    requires Wf(s) && HasProject(s) && filename != "" && filename != MetadataName
    requires !FolderHas(s.vault.folders[s.project.value], filename)
    requires Lists(listing, EntryNames(CreateNewSnippet(s, filename, true, listing).vault.folders[s.project.value]))
    ensures var r := CreateNewSnippet(s, filename, true, listing);
            var p := s.project.value;
            && r.vault.folders[p].files == s.vault.folders[p].files[filename := ""]
            && r.vault.folders[p].meta == s.vault.folders[p].meta
            && (forall q :: q in s.vault.folders && q != p ==> r.vault.folders[q] == s.vault.folders[q])
            && filename in r.cards
            && Lists(r.cards, r.vault.folders[p].files.Keys)
  {
    var r := CreateNewSnippet(s, filename, true, listing);
    var p := s.project.value;
    SnippetListingExact(r.vault.folders[p], listing);
  }

  /** Naming a new snippet `metadata.json` in a folder without a sidecar
      creates an empty sidecar, which no longer parses. */
  lemma CreateSnippetNamedSidecar(s: State, listing: seq<string>)
    requires Wf(s) && HasProject(s) && s.vault.folders[s.project.value].meta.Absent?
    ensures CreateNewSnippet(s, MetadataName, true, listing).vault.folders[s.project.value].meta.Corrupt?
    ensures CreateNewSnippet(s, MetadataName, true, listing).vault.folders[s.project.value].files
              == s.vault.folders[s.project.value].files
    ensures forall q :: q in s.vault.folders && q != s.project.value ==>
              CreateNewSnippet(s, MetadataName, true, listing).vault.folders[q] == s.vault.folders[q]
  {
  }

  /** The startup check: an existing default folder is left as it is, a
      missing one is created with the example projects `demo_project1` and
      `demo_project2`. */
  function SetupDefaultFolder(existing: Option<Vault>): (r: Vault)
    ensures existing.Some? ==> r == existing.value
    ensures existing.None? ==> Seeded(r) && r.folders.Keys == {"demo_project1", "demo_project2"}
  {
    existing.GetOr(ExampleVault("demo_project1", "demo_project2"))
  }
}

=== FILE: editor.dfy ===
/** The right-hand editor pane both windows share: the snippet text, the
    tag field and the code-type combo box. */
module Editor {
  import opened Wrappers
  import opened Tags
  import opened Store

  /** The items of the code-type combo box, in order. */
  const CodeTypes: seq<string> := ["txt", "python", "java", "bash"]

  /** What the text area shows when the snippet file cannot be opened. */
  const NotFoundText: string := "文件未找到"

  datatype Pane = Pane(text: string, readOnly: bool, tagsText: string, codeType: string)

  /** The combo box can only ever show one of its items. */
  predicate PaneWf(p: Pane) {
    p.codeType in CodeTypes
  }

  /** The pane with nothing opened: empty, read-only, first combo item. */
  const Blank: Pane := Pane("", true, "", CodeTypes[0])

  /** `setCurrentText` on a combo box that is not editable: a text among
      the items is selected, any other text leaves the selection alone. */
  function SelectCodeType(current: string, wanted: string): (r: string)
    ensures r == wanted || r == current
    ensures r == wanted <==> wanted in CodeTypes || wanted == current
  {
    if wanted in CodeTypes then wanted else current
  }

  /** The text area after trying to read a snippet file. */
  function ShowBody(body: Result<string, Error>): (r: string)
    ensures body.Success? ==> r == body.value
    ensures body.Failure? ==> r == NotFoundText
  {
    if body.Success? then body.value else NotFoundText
  }

  /** The pane showing an opened snippet: its text, its tags as shown text,
      its code type if the combo box has it, and editable. */
  function Open(p: Pane, text: string, e: Entry): (r: Pane)
    ensures r.text == text && !r.readOnly
    ensures r.tagsText == Display(e.tags)
    ensures PaneWf(p) ==> PaneWf(r)
    ensures e.codeType in CodeTypes ==> r.codeType == e.codeType
    ensures e.codeType !in CodeTypes ==> r.codeType == p.codeType
  {
    Pane(text, false, Display(e.tags), SelectCodeType(p.codeType, e.codeType))
  }

  /** The entry the tag field and combo box describe when the pane is
      saved. */
  function Edited(p: Pane): (e: Entry)
    ensures e.tags == Parse(p.tagsText)
    ensures PaneWf(p) ==> e.codeType in CodeTypes
  {
    Entry(Parse(p.tagsText), p.codeType)
  }
}

=== FILE: manager.dfy ===
/** The data logic of the tree-and-table window (`demo.py`): a tree with
    one node per project and its snippet files below it, a table of the
    selected project's snippets with their tags and code type, and an
    editor pane saved by a button.  Unlike the card window it reads the
    sidecar strictly: an unparseable `metadata.json` raises. */
module Manager {
  import opened Wrappers
  import opened Tags
  import opened Store
  import opened Editor
  import opened Seed

  /** A top-level tree node: a project and the names below it. */
  datatype Project = Project(name: string, children: seq<string>)

  /** A table row: file name, shown tags, code type. */
  datatype Row = Row(file: string, tags: string, codeType: string)

  /** A selected tree item: a project node, or the `child`-th name below
      the `project`-th node. */
  datatype Position = Top(project: nat) | Below(project: nat, child: nat)

  /** The tree nodes for a list of project names, each with the snippet
      names of its own listing. */
  function Projects(names: seq<string>, listDir: string -> seq<string>): (r: seq<Project>)
    ensures |r| == |names|
    ensures forall i :: 0 <= i < |r| ==>
              r[i].name == names[i] && r[i].children == SnippetNames(listDir(names[i]))
    decreases |names|
  {
    if |names| == 0 then []
    else [Project(names[0], SnippetNames(listDir(names[0])))] + Projects(names[1..], listDir)
  }

  /** Building the tree: one node per root entry that is a directory, in
      listing order; below it the entries of that directory except the
      sidecar, in listing order.  `listDir` is the enumeration of each
      project directory. */
  function PopulateTree(v: Vault, listing: seq<string>, listDir: string -> seq<string>): (r: seq<Project>)
    ensures |r| == |FolderNames(v, listing)|
    ensures forall i :: 0 <= i < |r| ==>
              r[i].name in v.folders && r[i].children == SnippetNames(listDir(r[i].name))
  {
    Projects(FolderNames(v, listing), listDir)
  }

  /** With listings of the root and of every folder, the tree has exactly one
      node per folder, and below each node exactly that folder's snippet
      files. */
  lemma TreeExact(v: Vault, listing: seq<string>, listDir: string -> seq<string>)
    requires VaultWf(v) && Lists(listing, RootNames(v))
    requires forall n :: n in v.folders ==> Lists(listDir(n), EntryNames(v.folders[n]))
    ensures var tree := PopulateTree(v, listing, listDir);
            && (forall n :: n in v.folders <==> exists i :: 0 <= i < |tree| && tree[i].name == n)
            && (forall i, j :: 0 <= i < j < |tree| ==> tree[i].name != tree[j].name)
            && (forall i :: 0 <= i < |tree| ==>
                  tree[i].name in v.folders
                  && Lists(tree[i].children, v.folders[tree[i].name].files.Keys))
  {
    TreeNames(v, listing, listDir);
    TreeDistinct(v, listing, listDir);
    var tree := PopulateTree(v, listing, listDir);
    forall i | 0 <= i < |tree|
      ensures tree[i].name in v.folders
      ensures Lists(tree[i].children, v.folders[tree[i].name].files.Keys)
    {
      TreeChildren(v, listing, listDir, i);
    }
  }

  /** The tree has a node for a name exactly when it is a folder. */
  lemma TreeNames(v: Vault, listing: seq<string>, listDir: string -> seq<string>)
    requires Lists(listing, RootNames(v))
    ensures var tree := PopulateTree(v, listing, listDir);
            forall n :: n in v.folders <==> exists i :: 0 <= i < |tree| && tree[i].name == n
  {
    var names := FolderNames(v, listing);
    var tree := PopulateTree(v, listing, listDir);
    FolderListingExact(v, listing);
    forall n | n in v.folders
      ensures exists i :: 0 <= i < |tree| && tree[i].name == n
    {
      assert n in names;
      var i :| 0 <= i < |names| && names[i] == n;
      assert tree[i].name == n;
    }
  }

  /** No two nodes of the tree have the same name. */
  lemma TreeDistinct(v: Vault, listing: seq<string>, listDir: string -> seq<string>)
    requires Lists(listing, RootNames(v))
    ensures var tree := PopulateTree(v, listing, listDir);
            forall i, j :: 0 <= i < j < |tree| ==> tree[i].name != tree[j].name
  {
    var names := FolderNames(v, listing);
    var tree := PopulateTree(v, listing, listDir);
    FolderListingExact(v, listing);
    forall i, j | 0 <= i < j < |tree|
      ensures tree[i].name != tree[j].name
    {
      NoDuplicatesDistinct(names, i, j);
    }
  }

  /** The `i`-th node of the tree is a folder, and below it is exactly that
      folder's snippet files. */
  lemma TreeChildren(v: Vault, listing: seq<string>, listDir: string -> seq<string>, i: nat)
    requires VaultWf(v) && Lists(listing, RootNames(v))
    requires forall n :: n in v.folders ==> Lists(listDir(n), EntryNames(v.folders[n]))
    requires i < |PopulateTree(v, listing, listDir)|
    ensures var node := PopulateTree(v, listing, listDir)[i];
            node.name in v.folders && Lists(node.children, v.folders[node.name].files.Keys)
  {
    var names := FolderNames(v, listing);
    assert names[i] in names;
    SnippetListingExact(v.folders[names[i]], listDir(names[i]));
  }

  /** Two positions of a sequence without duplicates hold different
      names. */
  lemma NoDuplicatesDistinct(s: seq<string>, i: nat, j: nat)
    requires NoDuplicates(s) && i < j < |s|
    ensures s[i] != s[j]
  {
    assert s == s[..j] + s[j..];
    assert multiset(s)[s[j]] == multiset(s[..j])[s[j]] + multiset(s[j..])[s[j]];
    assert s[j..][0] == s[j];
    assert s[..j][i] == s[i];
    assert multiset(s[..j])[s[i]] >= 1;
  }

  /** A position that names an item of the tree. */
  predicate ValidPosition(tree: seq<Project>, pos: Position) {
    match pos
    case Top(i) => i < |tree|
    case Below(i, j) => i < |tree| && j < |tree[i].children|
  }

  /** The project a selected tree item stands for: only an item that has
      children counts, so a project node with no snippet below it and every
      snippet item (which never has children) give none. */
  function SelectedProject(tree: seq<Project>, pos: Position): (r: Option<string>)
    requires ValidPosition(tree, pos)
    ensures r.Some? <==> pos.Top? && |tree[pos.project].children| > 0
    ensures r.Some? ==> r.value == tree[pos.project].name
  {
    match pos
    case Top(i) => if |tree[i].children| > 0 then Some(tree[i].name) else None
    case Below(_, _) => None
  }

  /** The rows for the given snippet names under metadata map `m`. */
  function Rows(m: MetadataMap, names: seq<string>): (r: seq<Row>)
    ensures |r| == |names|
    ensures forall i :: 0 <= i < |r| ==>
              r[i] == Row(names[i], Display(Lookup(m, names[i]).tags), Lookup(m, names[i]).codeType)
    decreases |names|
  {
    if |names| == 0 then []
    else
      var e := Lookup(m, names[0]);
      [Row(names[0], Display(e.tags), e.codeType)] + Rows(m, names[1..])
  }

  /** The table of project `p`: one row per entry of the project listing
      except the sidecar.  An unparseable sidecar raises before anything
      is listed; a project that is no longer a directory raises when it is
      listed. */
  function SnippetTable(v: Vault, p: string, listing: seq<string>): (r: Result<seq<Row>, Error>)
    ensures p !in v.folders ==> r == Failure(NotFound)
    ensures p in v.folders && v.folders[p].meta.Corrupt? ==> r == Failure(CorruptMetadata)
    ensures p in v.folders && !v.folders[p].meta.Corrupt? ==> r.Success?
    ensures r.Success? ==> NoSidecarRow(r.value)
  {
    if p !in v.folders then Failure(NotFound)
    else match LoadStrict(v.folders[p].meta)
      case Failure(e) => Failure(e)
      case Success(m) => Success(Rows(m, SnippetNames(listing)))
  }

  /** No row of the table is the sidecar. */
  predicate NoSidecarRow(rows: seq<Row>) {
    forall i :: 0 <= i < |rows| ==> rows[i].file != MetadataName
  }

  /** The file column of a table. */
  function RowFiles(rows: seq<Row>): (r: seq<string>)
    ensures |r| == |rows| && forall i :: 0 <= i < |r| ==> r[i] == rows[i].file
    decreases |rows|
  {
    if |rows| == 0 then [] else [rows[0].file] + RowFiles(rows[1..])
  }

  /** For a listing of a well-formed folder, the table has one row per
      snippet file and no other row; a row shows the file's stored tags and
      code type, and a file without an entry shows no tags and `txt`. */
  lemma TableExact(v: Vault, p: string, listing: seq<string>)
    requires VaultWf(v) && p in v.folders && !v.folders[p].meta.Corrupt?
    requires Lists(listing, EntryNames(v.folders[p]))
    ensures var rows := SnippetTable(v, p, listing).value;
            var m := LoadLenient(v.folders[p].meta);
            && Lists(RowFiles(rows), v.folders[p].files.Keys)
            && (forall i :: 0 <= i < |rows| ==>
                  rows[i].tags == Display(Lookup(m, rows[i].file).tags)
                  && rows[i].codeType == Lookup(m, rows[i].file).codeType)
            && (forall i :: 0 <= i < |rows| && rows[i].file !in m ==>
                  rows[i].tags == "" && rows[i].codeType == DefaultCodeType)
  {
    var names := SnippetNames(listing);
    var rows := SnippetTable(v, p, listing).value;
    SnippetListingExact(v.folders[p], listing);
    assert RowFiles(rows) == names;
  }

  /** The state of the window that the handlers read and write. */
  datatype State = State(vault: Vault, project: Option<string>, table: seq<Row>, pane: Pane)

  /** A handler's effect: the new state and the error it raised, if any.
      The effects before the raise are kept. */
  datatype Outcome = Outcome(state: State, raised: Option<Error>)

  /** The table only lists snippets of a selected project, never the
      sidecar, and the combo box only shows its own items. */
  predicate Wf(s: State) {
    && VaultWf(s.vault)
    && (|s.table| > 0 ==> s.project.Some?)
    && NoSidecarRow(s.table)
    && PaneWf(s.pane)
  }

  /** Refilling the table for the selected project: an unparseable sidecar
      raises and leaves the table as it was; a missing project clears the
      table, then raises. */
  function PopulateSnippetTable(s: State, listing: seq<string>): (o: Outcome)
    requires s.project.Some?
    ensures o.state.vault == s.vault && o.state.project == s.project && o.state.pane == s.pane
    ensures o.raised.None? <==> SnippetTable(s.vault, s.project.value, listing).Success?
    ensures o.raised.None? ==> o.state.table == SnippetTable(s.vault, s.project.value, listing).value
    ensures o.raised == Some(NotFound) ==> o.state.table == []
    ensures o.raised == Some(CorruptMetadata) ==> o.state.table == s.table
    ensures o.raised.Some? ==> SnippetTable(s.vault, s.project.value, listing) == Failure(o.raised.value)
    ensures Wf(s) ==> Wf(o.state)
  {
    match SnippetTable(s.vault, s.project.value, listing)
    case Success(rows) => Outcome(s.(table := rows), None)
    case Failure(NotFound) => Outcome(s.(table := []), Some(NotFound))
    case Failure(CorruptMetadata) => Outcome(s, Some(CorruptMetadata))
  }

  /** Selecting a tree item: an item with children becomes the project and
      fills the table; any other item changes nothing. */
  function OnTreeSelectionChanged(s: State, tree: seq<Project>, selected: Option<Position>,
                                  listing: seq<string>): (o: Outcome)
    requires selected.Some? ==> ValidPosition(tree, selected.value)
    ensures selected.None? || SelectedProject(tree, selected.value).None? ==> o == Outcome(s, None)
    ensures selected.Some? && SelectedProject(tree, selected.value).Some? ==>
              o == PopulateSnippetTable(s.(project := SelectedProject(tree, selected.value)), listing)
    ensures o.state.vault == s.vault && o.state.pane == s.pane
    ensures Wf(s) ==> Wf(o.state)
  {
    if selected.None? then Outcome(s, None)
    else match SelectedProject(tree, selected.value)
      case None => Outcome(s, None)
      case Some(name) => PopulateSnippetTable(s.(project := Some(name)), listing)
  }

  /** A folder without snippet files never becomes the project through the
      tree, and neither does any snippet item. */
  lemma EmptyFolderNeverSelected(v: Vault, rootListing: seq<string>, listDir: string -> seq<string>,
                                 s: State, pos: Position, listing: seq<string>)
    requires VaultWf(v) && Lists(rootListing, RootNames(v))
    requires forall n :: n in v.folders ==> Lists(listDir(n), EntryNames(v.folders[n]))
    requires ValidPosition(PopulateTree(v, rootListing, listDir), pos)
    requires pos.Top? ==>
               var n := PopulateTree(v, rootListing, listDir)[pos.project].name;
               n in v.folders && v.folders[n].files == map[]
    ensures OnTreeSelectionChanged(s, PopulateTree(v, rootListing, listDir), Some(pos), listing)
            == Outcome(s, None)
  {
    var tree := PopulateTree(v, rootListing, listDir);
    if pos.Top? {
      TreeChildren(v, rootListing, listDir, pos.project);
      var children := tree[pos.project].children;
      ListsNothing(children, v.folders[tree[pos.project].name].files.Keys);
    }
  }

  /** Selecting a project node of a readable folder fills the table with
      one row per snippet file of that folder, each once. */
  lemma SelectFillsTable(s: State, tree: seq<Project>, pos: Position, listing: seq<string>)
    requires VaultWf(s.vault) && ValidPosition(tree, pos)
    requires SelectedProject(tree, pos).Some?
    requires var p := SelectedProject(tree, pos).value;
             p in s.vault.folders && !s.vault.folders[p].meta.Corrupt?
             && Lists(listing, EntryNames(s.vault.folders[p]))
    ensures var o := OnTreeSelectionChanged(s, tree, Some(pos), listing);
            var p := SelectedProject(tree, pos).value;
            && o.raised.None? && o.state.project == Some(p)
            && Lists(RowFiles(o.state.table), s.vault.folders[p].files.Keys)
  {
    var p := SelectedProject(tree, pos).value;
    TableExact(s.vault, p, listing);
  }

  /** Selecting a table row: the pane shows the file (or the not-found
      text); then the sidecar is read strictly, and the tags and code type
      of the file's entry are shown and the pane becomes editable.  An
      unparseable sidecar raises after the text was shown. */
  function OnSnippetSelectionChanged(s: State, row: Option<nat>): (o: Outcome)
    requires Wf(s) && (row.Some? ==> row.value < |s.table|)
    ensures row.None? ==> o == Outcome(s, None)
    ensures o.state.vault == s.vault && o.state.project == s.project && o.state.table == s.table
    ensures row.Some? ==>
              var file := s.table[row.value].file;
              var p := s.project.value;
              && o.state.pane.text == ShowBody(ReadSnippet(s.vault, p, file))
              && (o.raised.Some? <==> p in s.vault.folders && s.vault.folders[p].meta.Corrupt?)
              && (o.raised.Some? ==> o.raised == Some(CorruptMetadata))
              && (o.raised.None? ==>
                    o.state.pane == Open(s.pane, o.state.pane.text, Lookup(LoadLenient(MetaOf(s.vault, p)), file)))
              && (o.raised.Some? ==> o.state.pane == s.pane.(text := o.state.pane.text))
    ensures Wf(s) ==> Wf(o.state)
  {
    if row.None? then Outcome(s, None)
    else
      var file := s.table[row.value].file;
      var p := s.project.value;
      var text := ShowBody(ReadSnippet(s.vault, p, file));
      match LoadStrict(MetaOf(s.vault, p))
      case Failure(e) => Outcome(s.(pane := s.pane.(text := text)), Some(e))
      case Success(m) => Outcome(s.(pane := Open(s.pane, text, Lookup(m, file))), None)
  }

  /** Writing a snippet with a strict read of the sidecar, into a folder
      that exists: the file gets `text`; then an unparseable sidecar raises
      and is left as it is, and any other becomes what was read with the
      entry of `name` replaced.  No other folder changes. */
  function StrictSave(v: Vault, p: string, name: string, text: string, e: Entry): (r: (Vault, Option<Error>))
    requires p in v.folders && name != MetadataName
    ensures r.0.plainFiles == v.plainFiles && r.0.folders.Keys == v.folders.Keys
    ensures forall q :: q in v.folders && q != p ==> r.0.folders[q] == v.folders[q]
    ensures r.0.folders[p].files == v.folders[p].files[name := text]
    ensures r.1.Some? <==> v.folders[p].meta.Corrupt?
    ensures r.1.Some? ==> r.1.value == CorruptMetadata && r.0.folders[p].meta == Corrupt
    ensures r.1.None? ==> r.0.folders[p].meta == Valid(Upsert(LoadLenient(v.folders[p].meta), name, e))
    ensures VaultWf(v) ==> VaultWf(r.0)
  {
    var f := v.folders[p];
    match LoadStrict(f.meta)
    case Failure(err) => (v.(folders := v.folders[p := f.(files := f.files[name := text])]), Some(err))
    case Success(m) => (v.(folders := v.folders[p := Save(f, name, text, m, e)]), None)
  }

  /** A save into a folder with a readable sidecar: the file holds the
      text, its entry reads back as the saved entry, every other file and
      entry is as before. */
  lemma StrictSaveEffect(v: Vault, p: string, name: string, text: string, e: Entry)
    requires p in v.folders && name != MetadataName && !v.folders[p].meta.Corrupt?
    ensures var before := v.folders[p];
            var r := StrictSave(v, p, name, text, e);
            var after := r.0.folders[p];
            && r.1.None?
            && after.files[name] == text
            && (forall k :: k in before.files && k != name ==> after.files[k] == before.files[k])
            && after.meta.Valid?
            && Lookup(after.meta.entries, name) == e
            && (forall k :: k != name ==> Lookup(after.meta.entries, k) == Lookup(LoadLenient(before.meta), k))
  {
    var loaded := LoadLenient(v.folders[p].meta);
    LookupUpsert(loaded, name, e);
    forall k | k != name
      ensures Lookup(Upsert(loaded, name, e), k) == Lookup(loaded, k)
    {
      LookupUpsertOther(loaded, name, e, k);
    }
  }

  /** Saving the same text and entry again changes nothing. */
  lemma StrictSaveIdempotent(v: Vault, p: string, name: string, text: string, e: Entry)
    requires p in v.folders && name != MetadataName
    ensures var r := StrictSave(v, p, name, text, e);
            StrictSave(r.0, p, name, text, e) == r
  {
    var r := StrictSave(v, p, name, text, e);
    var f := r.0.folders[p];
    assert f.files[name := text] == f.files;
    if r.1.None? {
      assert Upsert(f.meta.entries, name, e) == f.meta.entries;
    }
    assert r.0.folders[p := StrictSave(r.0, p, name, text, e).0.folders[p]] == r.0.folders;
  }

  /** The save button on a selected row: the file is written with the pane's
      text; then the sidecar is read strictly, the file's entry is replaced
      by the parsed tag field and the combo box's code type, the sidecar is
      written back and the table refilled.  A project that is no longer a
      folder raises at the first write; an unparseable sidecar raises after
      the file was written, and the table stays as it was. */
  function OnSave(s: State, row: Option<nat>, listing: seq<string>): (o: Outcome)
    requires Wf(s) && (row.Some? ==> row.value < |s.table|)
    ensures row.None? ==> o == Outcome(s, None)
    ensures row.Some? && s.project.value !in s.vault.folders ==> o == Outcome(s, Some(NotFound))
    ensures row.Some? && s.project.value in s.vault.folders ==>
              var w := StrictSave(s.vault, s.project.value, s.table[row.value].file, s.pane.text, Edited(s.pane));
              && o.state.vault == w.0 && o.raised == w.1
              && (w.1.None? ==> o == PopulateSnippetTable(s.(vault := w.0), listing))
    ensures o.raised == Some(CorruptMetadata) ==> o.state.table == s.table
    ensures o.state.project == s.project && o.state.pane == s.pane
    ensures Wf(o.state)
  {
    if row.None? then Outcome(s, None)
    else
      var p := s.project.value;
      if p !in s.vault.folders then Outcome(s, Some(NotFound))
      else
        var w := StrictSave(s.vault, p, s.table[row.value].file, s.pane.text, Edited(s.pane));
        if w.1.Some? then Outcome(s.(vault := w.0), w.1)
        else PopulateSnippetTable(s.(vault := w.0), listing)
  }

  /** What the save button does to the selected project: the file holds the
      pane's text; its entry reads back as the parsed tags and the combo
      box's code type; every other file and entry reads as before. */
  lemma SaveEffect(s: State, row: nat, listing: seq<string>)
    requires Wf(s) && row < |s.table|
    requires s.project.value in s.vault.folders && !s.vault.folders[s.project.value].meta.Corrupt?
    ensures var o := OnSave(s, Some(row), listing);
            var p := s.project.value;
            var file := s.table[row].file;
            var before := s.vault.folders[p];
            var after := o.state.vault.folders[p];
            && o.raised.None?
            && after.files[file] == s.pane.text
            && (forall k :: k in before.files && k != file ==> after.files[k] == before.files[k])
            && after.meta.Valid?
            && Lookup(after.meta.entries, file) == Entry(Parse(s.pane.tagsText), s.pane.codeType)
            && (forall k :: k != file ==> Lookup(after.meta.entries, k) == Lookup(LoadLenient(before.meta), k))
  {
    StrictSaveEffect(s.vault, s.project.value, s.table[row].file, s.pane.text, Edited(s.pane));
  }

  /** A save over an unparseable sidecar raises `CorruptMetadata` after
      writing the file, and leaves the sidecar unparseable rather than
      replacing it. */
  lemma SaveOverCorrupt(s: State, row: nat, listing: seq<string>)
    requires Wf(s) && row < |s.table|
    requires s.project.value in s.vault.folders && s.vault.folders[s.project.value].meta.Corrupt?
    ensures var o := OnSave(s, Some(row), listing);
            var p := s.project.value;
            && o.raised == Some(CorruptMetadata)
            && o.state.vault.folders[p].meta.Corrupt?
            && o.state.vault.folders[p].files == s.vault.folders[p].files[s.table[row].file := s.pane.text]
            && o.state.table == s.table
  {
  }

  /** Pressing save again on the row of the same file changes nothing. */
  lemma SaveIdempotent(s: State, row: nat, listing: seq<string>)
    requires Wf(s) && row < |s.table|
    requires OnSave(s, Some(row), listing).raised.None?
    requires row < |OnSave(s, Some(row), listing).state.table|
    requires OnSave(s, Some(row), listing).state.table[row].file == s.table[row].file
    ensures OnSave(OnSave(s, Some(row), listing).state, Some(row), listing) == OnSave(s, Some(row), listing)
  {
    var p := s.project.value;
    StrictSaveIdempotent(s.vault, p, s.table[row].file, s.pane.text, Edited(s.pane));
  }

  /** Selecting the saved file's row after a save shows what was saved: the
      same text, a tag field that reads back to the same tags, and the same
      code type. */
  lemma SaveThenReselect(s: State, row: nat, listing: seq<string>, again: nat)
    requires Wf(s) && row < |s.table|
    requires OnSave(s, Some(row), listing).raised.None?
    requires again < |OnSave(s, Some(row), listing).state.table|
    requires OnSave(s, Some(row), listing).state.table[again].file == s.table[row].file
    ensures var o := OnSnippetSelectionChanged(OnSave(s, Some(row), listing).state, Some(again));
            && o.raised.None?
            && o.state.pane.text == s.pane.text
            && Parse(o.state.pane.tagsText) == Parse(s.pane.tagsText)
            && o.state.pane.codeType == s.pane.codeType
  {
    var p := s.project.value;
    var file := s.table[row].file;
    StrictSaveEffect(s.vault, p, file, s.pane.text, Edited(s.pane));
    ParseStable(s.pane.tagsText);
  }

  /** The startup check: an existing default folder is left as it is, a
      missing one is created with the example projects `project1` and
      `project2`. */
  function SetupDefaultFolder(existing: Option<Vault>): (r: Vault)
    ensures existing.Some? ==> r == existing.value
    ensures existing.None? ==> Seeded(r) && r.folders.Keys == {"project1", "project2"}
  {
    existing.GetOr(ExampleVault("project1", "project2"))
  }
}

=== FILE: seed.dfy ===
/** The example vault both windows create on first start, when their
    default folder does not exist yet: two projects, three snippets and a
    sidecar per project. */
module Seed {
  import opened Store
  import opened Editor

  /** Every metadata key names a snippet file of the same folder, and every
      entry has both fields, with a code type the combo box offers. */
  predicate Consistent(f: Folder) {
    && f.meta.Valid?
    && f.meta.entries.Keys <= f.files.Keys
    && forall k :: k in f.meta.entries ==>
         && f.meta.entries[k].tags.Some?
         && f.meta.entries[k].codeType.Some?
         && f.meta.entries[k].codeType.value in CodeTypes
  }

  /** A well-formed vault whose every folder is consistent. */
  predicate Seeded(v: Vault) {
    && VaultWf(v)
    && forall p :: p in v.folders ==> Consistent(v.folders[p])
  }

  const PythonBody: string := "print('Hello, World!')\n"
  const BashBody: string := "#!/bin/bash\necho 'Hello from Bash'\n"
  const JavaBody: string :=
    "public class Hello {\n    public static void main(String[] args) {\n        System.out.println(\"Hello, Java!\");\n    }\n}\n"

  /** The example vault with its two projects named `first` and `second`:
      the first holds `snippet1.py` and `snippet2.sh`, the second
      `snippet3.java`, each with its entry in the project's sidecar. */
  function ExampleVault(first: string, second: string): (v: Vault)
    ensures Seeded(v)
    ensures v.folders.Keys == {first, second} && v.plainFiles == {}
    ensures first != second ==>
              && v.folders[first].files.Keys == {"snippet1.py", "snippet2.sh"}
              && v.folders[second].files.Keys == {"snippet3.java"}
  {
    var project1 := Folder(
      map["snippet1.py" := PythonBody, "snippet2.sh" := BashBody],
      Valid(map[
        "snippet1.py" := Stored(Entry(["python", "example"], "python")),
        "snippet2.sh" := Stored(Entry(["bash", "script"], "bash"))]));
    var project2 := Folder(
      map["snippet3.java" := JavaBody],
      Valid(map["snippet3.java" := Stored(Entry(["java", "example"], "java"))]));
    assert "python" == CodeTypes[1] && "java" == CodeTypes[2] && "bash" == CodeTypes[3];
    assert Consistent(project1) && Consistent(project2);
    Vault(map[first := project1, second := project2], {})
  }
}

=== FILE: store.dfy ===
/** The snippet vault on disk, abstracted to immutable maps.

    A vault is a directory whose sub-directories are folders (also called
    projects); it may hold plain files too, which are never folders.  A
    folder holds snippet files and at most one `metadata.json`, a JSON
    object from snippet file name to `{"tags": [...], "code_type": ...}`.
    The order in which the operating system enumerates a directory is not
    part of the state: it is passed in as a `listing`. */
module Store {
  import opened Wrappers

  /** The sidecar file of a folder. */
  const MetadataName: string := "metadata.json"

  /** The tags a file without a metadata entry is shown with. */
  const DefaultTags: seq<string> := []

  /** The code type a file without a metadata entry is shown with. */
  const DefaultCodeType: string := "txt"

  /** An entry as stored in `metadata.json`; a hand-edited file may lack
      either field. */
  datatype StoredEntry = StoredEntry(tags: Option<seq<string>>, codeType: Option<string>)

  /** An entry with the defaults for missing fields filled in. */
  datatype Entry = Entry(tags: seq<string>, codeType: string)

  type MetadataMap = map<string, StoredEntry>

  /** The state of `metadata.json`: not there, there but not valid JSON,
      or a parsed object. */
  datatype Metadata = Absent | Corrupt | Valid(entries: MetadataMap)

  /** A folder: snippet file name to body, plus its sidecar. */
  datatype Folder = Folder(files: map<string, string>, meta: Metadata)

  /** A vault: folder name to folder, plus the names of plain root files. */
  datatype Vault = Vault(folders: map<string, Folder>, plainFiles: set<string>)

  datatype Error = NotFound | CorruptMetadata

  /** The sidecar is the `meta` field, never one of the snippet files. */
  predicate FolderWf(f: Folder) {
    MetadataName !in f.files
  }

  /** A root entry is either a folder or a plain file, and every folder is
      well formed. */
  predicate VaultWf(v: Vault) {
    && v.folders.Keys !! v.plainFiles
    && forall n :: n in v.folders ==> FolderWf(v.folders[n])
  }

  /** The names a directory listing of the folder shows. */
  function EntryNames(f: Folder): set<string> {
    f.files.Keys + (if f.meta.Absent? then {} else {MetadataName})
  }

  /** The names a directory listing of the vault root shows. */
  function RootNames(v: Vault): set<string> {
    v.folders.Keys + v.plainFiles
  }

  /** `os.path.exists` for an entry of the vault root. */
  predicate RootHas(v: Vault, name: string) {
    name in v.folders || name in v.plainFiles
  }

  /** `os.path.exists` for an entry of a folder. */
  predicate FolderHas(f: Folder, name: string) {
    name in f.files || (name == MetadataName && !f.meta.Absent?)
  }

  ghost predicate NoDuplicates(s: seq<string>) {
    forall x :: multiset(s)[x] <= 1
  }

  /** `listing` is one enumeration of the directory whose entries are
      `names`: each name exactly once, in some order. */
  ghost predicate Lists(listing: seq<string>, names: set<string>) {
    && NoDuplicates(listing)
    && forall x :: x in listing <==> x in names
  }

  /** The only enumeration of an empty directory is empty. */
  lemma ListsNothing(listing: seq<string>, names: set<string>)
    requires Lists(listing, names) && names == {}
    ensures listing == []
  {
    forall x
      ensures multiset(listing)[x] == 0
    {
      assert x in listing <==> multiset(listing)[x] > 0;
    }
    assert multiset(listing) == multiset{};
    assert |listing| == |multiset(listing)|;
  }

  /** A fresh folder: no snippets and an empty JSON object as sidecar. */
  const EmptyFolder: Folder := Folder(map[], Valid(map[]))

  /** How a front end writes an entry: both fields present. */
  function Stored(e: Entry): StoredEntry {
    StoredEntry(Some(e.tags), Some(e.codeType))
  }

  /** `metadata.get(name, {})` followed by `.get("tags", [])` and
      `.get("code_type", "txt")`: each missing part takes its default, each
      present part is returned as stored. */
  function Lookup(m: MetadataMap, name: string): (e: Entry)
    ensures name !in m ==> e == Entry(DefaultTags, DefaultCodeType)
    ensures name in m && m[name].tags.Some? ==> e.tags == m[name].tags.value
    ensures name in m && m[name].tags.None? ==> e.tags == DefaultTags
    ensures name in m && m[name].codeType.Some? ==> e.codeType == m[name].codeType.value
    ensures name in m && m[name].codeType.None? ==> e.codeType == DefaultCodeType
  {
    var stored := if name in m then m[name] else StoredEntry(None, None);
    Entry(stored.tags.GetOr(DefaultTags), stored.codeType.GetOr(DefaultCodeType))
  }

  /** The lenient read of the sidecar: a missing or unparseable file reads
      as the empty object. */
  function LoadLenient(meta: Metadata): (m: MetadataMap)
    ensures meta.Valid? ==> m == meta.entries
    ensures !meta.Valid? ==> m == map[]
  {
    if meta.Valid? then meta.entries else map[]
  }

  /** The strict read of the sidecar: a missing file reads as the empty
      object, an unparseable one raises. */
  function LoadStrict(meta: Metadata): (r: Result<MetadataMap, Error>)
    ensures r.Failure? <==> meta.Corrupt?
    ensures r.Failure? ==> r.error == CorruptMetadata
    ensures r.Success? ==> r.value == LoadLenient(meta)
  {
    match meta
    case Absent => Success(map[])
    case Corrupt => Failure(CorruptMetadata)
    case Valid(m) => Success(m)
  }

  /** The sidecar of project `p` as the file system shows it: a project
      that is gone has none. */
  function MetaOf(v: Vault, p: string): (meta: Metadata)
    ensures p in v.folders ==> meta == v.folders[p].meta
    ensures p !in v.folders ==> meta.Absent?
  {
    if p in v.folders then v.folders[p].meta else Absent
  }

  /** `metadata[name] = {...}`: the entry of `name` is replaced as a whole,
      every other key keeps its entry, no key is dropped. */
  function Upsert(m: MetadataMap, name: string, e: Entry): (r: MetadataMap)
    ensures r.Keys == m.Keys + {name}
    ensures r[name] == Stored(e)
    ensures forall k :: k in m && k != name ==> r[k] == m[k]
  {
    m[name := Stored(e)]
  }

  /** Reading back an entry just written gives it unchanged. */
  lemma LookupUpsert(m: MetadataMap, name: string, e: Entry)
    ensures Lookup(Upsert(m, name, e), name) == e
  {
  }

  /** Writing one entry leaves what every other name reads unchanged. */
  lemma LookupUpsertOther(m: MetadataMap, name: string, e: Entry, other: string)
    requires other != name
    ensures Lookup(Upsert(m, name, e), other) == Lookup(m, other)
  {
  }

  /** Reading a snippet file: its body, or `NotFound` when the folder or the
      file is not there. */
  function ReadSnippet(v: Vault, project: string, name: string): (r: Result<string, Error>)
    requires name != MetadataName
    ensures r.Success? <==> project in v.folders && name in v.folders[project].files
    ensures r.Success? ==> r.value == v.folders[project].files[name]
    ensures r.Failure? ==> r.error == NotFound
  {
    if project in v.folders && name in v.folders[project].files
    then Success(v.folders[project].files[name])
    else Failure(NotFound)
  }

  /** Saving a snippet into a folder: the file gets the editor text (the
      file is created if it went missing) and the sidecar becomes `loaded`
      with the entry of `name` replaced.  Nothing else in the folder
      changes. */
  function Save(f: Folder, name: string, text: string, loaded: MetadataMap, e: Entry): (r: Folder)
    requires name != MetadataName
    ensures r.files.Keys == f.files.Keys + {name}
    ensures r.files[name] == text
    ensures forall k :: k in f.files && k != name ==> r.files[k] == f.files[k]
    ensures r.meta.Valid? && r.meta.entries == Upsert(loaded, name, e)
    ensures FolderWf(f) ==> FolderWf(r)
  {
    Folder(f.files[name := text], Valid(Upsert(loaded, name, e)))
  }

  /** The directory entries of a folder listing, minus the sidecar. */
  function SnippetNames(listing: seq<string>): (r: seq<string>)
    ensures MetadataName !in r
    decreases |listing|
  {
    if |listing| == 0 then []
    else if listing[0] == MetadataName then SnippetNames(listing[1..])
    else [listing[0]] + SnippetNames(listing[1..])
  }

  /** The snippet list holds every entry of the listing but the sidecar, as
      often as the listing does. */
  lemma {:induction false} SnippetNamesCount(listing: seq<string>)
    ensures multiset(SnippetNames(listing)) == multiset(listing)[MetadataName := 0]
    decreases |listing|
  {
    if |listing| > 0 {
      SnippetNamesCount(listing[1..]);
      assert listing == [listing[0]] + listing[1..];
    }
  }

  /** The snippet list of a listing is that of its first entry in front of
      that of the rest. */
  lemma SnippetNamesCons(x: string, rest: seq<string>)
    ensures SnippetNames([x] + rest)
            == (if x == MetadataName then [] else [x]) + SnippetNames(rest)
  {
    assert ([x] + rest)[1..] == rest;
  }

  /** The snippet list keeps the listing order: it is computed piece by
      piece. */
  lemma {:induction false} SnippetNamesAppend(a: seq<string>, b: seq<string>)
    ensures SnippetNames(a + b) == SnippetNames(a) + SnippetNames(b)
    decreases |a|
  {
    if |a| > 0 {
      var x, rest := a[0], a[1..];
      SnippetNamesAppend(rest, b);
      assert a == [x] + rest;
      assert a + b == [x] + (rest + b);
      SnippetNamesCons(x, rest);
      SnippetNamesCons(x, rest + b);
    } else {
      assert a + b == b;
    }
  }

  /** An enumeration of a well-formed folder yields every snippet file
      exactly once and nothing else. */
  lemma SnippetListingExact(f: Folder, listing: seq<string>)
    requires FolderWf(f) && Lists(listing, EntryNames(f))
    ensures Lists(SnippetNames(listing), f.files.Keys)
  {
    var r := SnippetNames(listing);
    SnippetNamesCount(listing);
    forall x
      ensures multiset(r)[x] <= 1
      ensures x in r <==> x in f.files
    {
      assert x in r <==> multiset(r)[x] > 0;
      assert x in listing <==> multiset(listing)[x] > 0;
    }
  }

  /** The root entries of a listing that are folders, in listing order. */
  function FolderNames(v: Vault, listing: seq<string>): (r: seq<string>)
    ensures forall x :: multiset(r)[x] == if x in v.folders then multiset(listing)[x] else 0
    ensures forall i :: 0 <= i < |r| ==> r[i] in v.folders
    decreases |listing|
  {
    if |listing| == 0 then []
    else
      var rest := FolderNames(v, listing[1..]);
      assert listing == [listing[0]] + listing[1..];
      if listing[0] in v.folders then [listing[0]] + rest else rest
  }

  /** The folder list keeps the listing order: it is computed piece by
      piece. */
  lemma {:induction false} FolderNamesAppend(v: Vault, a: seq<string>, b: seq<string>)
    ensures FolderNames(v, a + b) == FolderNames(v, a) + FolderNames(v, b)
    decreases |a|
  {
    if |a| > 0 {
      FolderNamesAppend(v, a[1..], b);
      assert (a + b)[0] == a[0];
      assert (a + b)[1..] == a[1..] + b;
    } else {
      assert a + b == b;
    }
  }

  /** An enumeration of the vault root yields every folder exactly once and
      no plain file. */
  lemma FolderListingExact(v: Vault, listing: seq<string>)
    requires Lists(listing, RootNames(v))
    ensures Lists(FolderNames(v, listing), v.folders.Keys)
  {
    var r := FolderNames(v, listing);
    forall x
      ensures multiset(r)[x] <= 1
      ensures x in r <==> x in v.folders
    {
      assert x in r <==> multiset(r)[x] > 0;
      assert x in listing <==> multiset(listing)[x] > 0;
    }
  }
}

=== FILE: strings.dfy ===
/** The few Python `str` operations the snippet handlers rely on:
    `strip()`, `split(sep)`, `sep.join(parts)` and `replace(old, "")`,
    stated over `seq<char>`. */
module Strings {

  /** The characters Python's `str.isspace()` accepts: the ASCII controls
      TAB..CR and FS..US, SPACE, NEL, NO-BREAK SPACE, and the Unicode space
      separators and line and paragraph separators. */
  const SpaceChars: set<char> := {
      '\U{9}', '\U{A}', '\U{B}', '\U{C}', '\U{D}', '\U{1C}',
      '\U{1D}', '\U{1E}', '\U{1F}', '\U{20}', '\U{85}', '\U{A0}',
      '\U{1680}', '\U{2000}', '\U{2001}', '\U{2002}', '\U{2003}', '\U{2004}',
      '\U{2005}', '\U{2006}', '\U{2007}', '\U{2008}', '\U{2009}', '\U{200A}',
      '\U{2028}', '\U{2029}', '\U{202F}', '\U{205F}', '\U{3000}'
    }

  /** Python's `str.isspace()` for a single character. */
  predicate IsSpace(c: char) {
    c in SpaceChars
  }

  /** Every character of `s` from index `lo` up to `hi` is whitespace. */
  predicate SpaceBetween(s: string, lo: nat, hi: nat) {
    lo <= hi <= |s| && forall k :: lo <= k < hi ==> IsSpace(s[k])
  }

  /** No whitespace at either end: what `strip()` leaves behind. */
  predicate IsTrimmed(s: string) {
    |s| == 0 || (!IsSpace(s[0]) && !IsSpace(s[|s| - 1]))
  }

  /** Whitespace in front of a whitespace run keeps it a run. */
  lemma SpaceBefore(s: string, n: nat)
    requires |s| > 0 && IsSpace(s[0]) && SpaceBetween(s[1..], 0, n)
    ensures SpaceBetween(s, 0, n + 1)
  {
    forall k | 1 <= k < n + 1
      ensures IsSpace(s[k])
    {
      assert s[k] == s[1..][k - 1];
    }
  }

  /** `s.lstrip()`: the suffix left after dropping the leading whitespace. */
  function LStrip(s: string): (r: string)
    ensures |r| <= |s| && r == s[|s| - |r|..]
    ensures SpaceBetween(s, 0, |s| - |r|)
    ensures |r| == 0 || !IsSpace(r[0])
    decreases |s|
  {
    if |s| > 0 && IsSpace(s[0]) then
      var r := LStrip(s[1..]);
      SpaceBefore(s, |s| - 1 - |r|);
      r
    else s
  }

  /** `s.rstrip()`: the prefix left after dropping the trailing whitespace. */
  function RStrip(s: string): (r: string)
    ensures |r| <= |s| && r == s[..|r|]
    ensures SpaceBetween(s, |r|, |s|)
    ensures |r| == 0 || !IsSpace(r[|r| - 1])
    decreases |s|
  {
    if |s| > 0 && IsSpace(s[|s| - 1]) then
      var r := RStrip(s[..|s| - 1]);
      assert forall k :: |r| <= k < |s| - 1 ==> s[k] == s[..|s| - 1][k];
      r
    else s
  }

  /** `r` is the infix of `s` at index `i`, with only whitespace before and
      after it. */
  predicate StrippedAt(s: string, r: string, i: nat) {
    && i + |r| <= |s|
    && r == s[i..i + |r|]
    && SpaceBetween(s, 0, i)
    && SpaceBetween(s, i + |r|, |s|)
  }

  /** A prefix `r` of a suffix `l` of `s`, each cut at whitespace, is a
      stripped infix of `s`. */
  lemma StrippedInside(s: string, l: string, r: string)
    requires |l| <= |s| && l == s[|s| - |l|..] && SpaceBetween(s, 0, |s| - |l|)
    requires |l| == 0 || !IsSpace(l[0])
    requires |r| <= |l| && r == l[..|r|] && SpaceBetween(l, |r|, |l|)
    requires |r| == 0 || !IsSpace(r[|r| - 1])
    ensures IsTrimmed(r) && StrippedAt(s, r, |s| - |l|)
  {
    var i := |s| - |l|;
    assert r == s[i..i + |r|];
    forall k | i + |r| <= k < |s|
      ensures IsSpace(s[k])
    {
      assert s[k] == l[k - i];
    }
    assert |r| > 0 ==> r[0] == l[0];
  }

  /** `s.strip()`: no whitespace is left at either end. */
  function Strip(s: string): (r: string)
    ensures |r| <= |s| && IsTrimmed(r)
  {
    var l := LStrip(s);
    var r := RStrip(l);
    StrippedInside(s, l, r);
    r
  }

  /** `s.strip()` is the infix of `s` starting where `s.lstrip()` starts,
      with nothing but whitespace around it. */
  lemma StripInfix(s: string)
    ensures StrippedAt(s, Strip(s), |s| - |LStrip(s)|)
  {
    StrippedInside(s, LStrip(s), RStrip(LStrip(s)));
  }

  /** A character absent from `s` is absent from every infix of `s`. */
  lemma InfixKeepsAbsent(s: string, r: string, i: nat, c: char)
    requires i + |r| <= |s| && r == s[i..i + |r|] && c !in s
    ensures c !in r
  {
  }

  /** Stripping only removes characters: one absent before is absent after. */
  lemma StripKeepsAbsent(s: string, c: char)
    requires c !in s
    ensures c !in Strip(s)
  {
    var r := Strip(s);
    StripInfix(s);
    InfixKeepsAbsent(s, r, |s| - |LStrip(s)|, c);
  }

  /** Stripping changes nothing exactly when the string is already trimmed. */
  lemma StripFixedPoint(s: string)
    ensures Strip(s) == s <==> IsTrimmed(s)
  {
    if IsTrimmed(s) && |s| > 0 {
      assert LStrip(s) == s;
      assert RStrip(s) == s;
    }
  }

  /** Leading whitespace never survives `strip()`. */
  lemma StripLeadingSpace(c: char, s: string)
    requires IsSpace(c)
    ensures Strip([c] + s) == Strip(s)
  {
    assert ([c] + s)[1..] == s;
  }

  /** `s.split(sep)` for a one-character separator: one field per separator
      plus one, none of them containing the separator; `""` gives `[""]`. */
  function Split(s: string, sep: char): (r: seq<string>)
    ensures |r| >= 1
    ensures forall i :: 0 <= i < |r| ==> sep !in r[i]
    decreases |s|
  {
    if |s| == 0 then [""]
    else
      var rest := Split(s[1..], sep);
      if s[0] == sep then [""] + rest
      else [[s[0]] + rest[0]] + rest[1..]
  }

  /** A split has one field per separator plus one. */
  lemma {:induction false} SplitCount(s: string, sep: char)
    ensures |Split(s, sep)| == multiset(s)[sep] + 1
    decreases |s|
  {
    if |s| > 0 {
      SplitCount(s[1..], sep);
      SplitCons(s[0], s[1..], sep);
      assert s == [s[0]] + s[1..];
      assert multiset(s) == multiset([s[0]]) + multiset(s[1..]);
    }
  }

  /** A non-empty sequence is its head in front of its tail. */
  lemma HeadTail<T>(s: seq<T>)
    requires |s| > 0
    ensures s == [s[0]] + s[1..]
  {
  }

  /** `sep.join(parts)`. */
  function Join(parts: seq<string>, sep: string): (r: string)
    ensures |parts| == 0 ==> r == ""
    ensures |parts| >= 1 ==> parts[0] <= r
    decreases |parts|
  {
    if |parts| == 0 then ""
    else if |parts| == 1 then parts[0]
    else parts[0] + sep + Join(parts[1..], sep)
  }

  /** Joining the fields of a split with the same separator rebuilds the
      original text. */
  lemma {:induction false} JoinSplit(s: string, sep: char)
    ensures Join(Split(s, sep), [sep]) == s
    decreases |s|
  {
    if |s| > 0 {
      var rest := Split(s[1..], sep);
      JoinSplit(s[1..], sep);
      assert s == [s[0]] + s[1..];
      SplitCons(s[0], s[1..], sep);
      if s[0] == sep {
        JoinCons("", rest, [sep]);
      } else {
        JoinExtendHead([s[0]], rest, [sep]);
      }
    }
  }

  /** Prepending a field adds it and one separator in front of the join. */
  lemma JoinCons(p: string, parts: seq<string>, sep: string)
    requires |parts| >= 1
    ensures Join([p] + parts, sep) == p + sep + Join(parts, sep)
  {
    assert ([p] + parts)[1..] == parts;
  }

  /** Growing the first field at its front grows the join by the same text. */
  lemma JoinExtendHead(pre: string, parts: seq<string>, sep: string)
    requires |parts| >= 1
    ensures Join([pre + parts[0]] + parts[1..], sep) == pre + Join(parts, sep)
  {
    var q := [pre + parts[0]] + parts[1..];
    if |parts| > 1 {
      assert q[1..] == parts[1..];
      assert Join(q, sep) == (pre + parts[0]) + sep + Join(parts[1..], sep);
      assert Join(parts, sep) == parts[0] + sep + Join(parts[1..], sep);
    }
  }

  /** A field free of the separator splits to itself. */
  lemma {:induction false} SplitPlain(s: string, sep: char)
    requires sep !in s
    ensures Split(s, sep) == [s]
    decreases |s|
  {
    if |s| > 0 {
      SplitPlain(s[1..], sep);
      assert s == [s[0]] + s[1..];
    }
  }

  /** Splitting a string after its first character: a separator starts a
      new field, any other character joins the first field. */
  lemma SplitCons(c: char, s: string, sep: char)
    ensures Split([c] + s, sep)
            == if c == sep then [""] + Split(s, sep)
               else [[c] + Split(s, sep)[0]] + Split(s, sep)[1..]
  {
    assert ([c] + s)[1..] == s;
  }

  /** Splitting `p + sep + t` cuts off the separator-free field `p` first. */
  lemma {:induction false} SplitField(p: string, sep: char, t: string)
    requires sep !in p
    ensures Split(p + [sep] + t, sep) == [p] + Split(t, sep)
    decreases |p|
  {
    if |p| == 0 {
      assert p + [sep] + t == [sep] + t;
      SplitCons(sep, t, sep);
    } else {
      var u := p[1..] + [sep] + t;
      assert p + [sep] + t == [p[0]] + u;
      SplitField(p[1..], sep, t);
      SplitCons(p[0], u, sep);
      assert [p[0]] + p[1..] == p;
    }
  }

  /** Splitting the join of separator-free fields gives the fields back. */
  lemma {:induction false} SplitJoin(parts: seq<string>, sep: char)
    requires |parts| >= 1
    requires forall i :: 0 <= i < |parts| ==> sep !in parts[i]
    ensures Split(Join(parts, [sep]), sep) == parts
    decreases |parts|
  {
    if |parts| == 1 {
      SplitPlain(parts[0], sep);
    } else {
      SplitJoin(parts[1..], sep);
      SplitField(parts[0], sep, Join(parts[1..], [sep]));
      assert parts == [parts[0]] + parts[1..];
    }
  }

  /** How many times `c` occurs across all of `parts`. */
  function Occurrences(parts: seq<string>, c: char): nat
    decreases |parts|
  {
    if |parts| == 0 then 0 else multiset(parts[0])[c] + Occurrences(parts[1..], c)
  }

  /** A join holds the characters of its parts plus one separator per gap. */
  lemma {:induction false} JoinCount(parts: seq<string>, sep: string, c: char)
    requires |parts| >= 1
    ensures multiset(Join(parts, sep))[c]
            == Occurrences(parts, c) + (|parts| - 1) * multiset(sep)[c]
    decreases |parts|
  {
    if |parts| > 1 {
      var j := Join(parts[1..], sep);
      var k := multiset(sep)[c];
      JoinCount(parts[1..], sep, c);
      JoinCountStep(parts[0], sep, j, c);
      GapCount(|parts| - 1, k);
    }
  }

  /** The characters of a field, a separator and the rest of a join. */
  lemma JoinCountStep(p: string, sep: string, j: string, c: char)
    ensures multiset(p + sep + j)[c] == multiset(p)[c] + multiset(sep)[c] + multiset(j)[c]
  {
    assert multiset(p + sep + j) == multiset(p) + multiset(sep) + multiset(j);
  }

  /** One more gap adds one more separator. */
  lemma GapCount(n: int, k: int)
    ensures (n - 1) * k + k == n * k
  {
  }

  /** No occurrence across the parts means no occurrence in any part. */
  lemma {:induction false} OccurrencesZero(parts: seq<string>, c: char)
    requires Occurrences(parts, c) == 0
    ensures forall i :: 0 <= i < |parts| ==> c !in parts[i]
    decreases |parts|
  {
    if |parts| > 0 {
      OccurrencesZero(parts[1..], c);
      forall i | 0 <= i < |parts|
        ensures c !in parts[i]
      {
        if i > 0 {
          assert parts[i] == parts[1..][i - 1];
        }
      }
    }
  }

  /** `p` occurs in `s` starting at index `k`. */
  predicate OccursAt(s: string, p: string, k: nat) {
    k + |p| <= |s| && s[k..k + |p|] == p
  }

  ghost predicate Occurs(s: string, p: string) {
    exists k: nat :: OccursAt(s, p, k)
  }

  /** `s.replace(p, "")`: Python scans left to right and removes every
      non-overlapping occurrence of `p`. */
  function DeleteAll(s: string, p: string): (r: string)
    requires |p| > 0
    ensures |r| <= |s|
    decreases |s|
  {
    if |s| == 0 then s
    else if p <= s then DeleteAll(s[|p|..], p)
    else [s[0]] + DeleteAll(s[1..], p)
  }

  /** An occurrence after the first character is an occurrence in the tail
      one index earlier. */
  lemma OccursShift(s: string, p: string, k: nat)
    requires |s| > 0
    ensures OccursAt(s, p, k + 1) <==> OccursAt(s[1..], p, k)
  {
    if k + 1 + |p| <= |s| {
      assert s[1..][k..k + |p|] == s[k + 1..k + 1 + |p|];
    }
  }

  /** Any occurrence of `p` makes the deletion strictly shorten `s`. */
  lemma {:induction false} DeleteAllShrinks(s: string, p: string, k: nat)
    requires |p| > 0 && OccursAt(s, p, k)
    ensures |DeleteAll(s, p)| < |s|
    decreases |s|
  {
    if !(p <= s) {
      assert k > 0;
      OccursShift(s, p, k - 1);
      DeleteAllShrinks(s[1..], p, k - 1);
    }
  }

  /** Without any occurrence of `p` the deletion leaves `s` alone. */
  lemma {:induction false} DeleteAllAbsent(s: string, p: string)
    requires |p| > 0 && !Occurs(s, p)
    ensures DeleteAll(s, p) == s
    decreases |s|
  {
    if |s| > 0 {
      if p <= s {
        assert OccursAt(s, p, 0);
      }
      assert !Occurs(s[1..], p) by {
        if Occurs(s[1..], p) {
          var k: nat :| OccursAt(s[1..], p, k);
          OccursShift(s, p, k);
        }
      }
      DeleteAllAbsent(s[1..], p);
      assert s == [s[0]] + s[1..];
    }
  }

  /** `s.replace(p, "")` shortens `s` exactly when `p` occurs in it, and
      returns `s` itself exactly when `p` does not occur. */
  lemma DeleteAllLength(s: string, p: string)
    requires |p| > 0
    ensures Occurs(s, p) <==> |DeleteAll(s, p)| < |s|
    ensures DeleteAll(s, p) == s <==> !Occurs(s, p)
  {
    if Occurs(s, p) {
      var k: nat :| OccursAt(s, p, k);
      DeleteAllShrinks(s, p, k);
    } else {
      DeleteAllAbsent(s, p);
    }
  }
}

=== FILE: tags.dfy ===
/** The tag text shown in the editor's tag field.  Both front ends show a
    tag list as `", ".join(tags)` and read the field back as
    `[t.strip() for t in text.split(",")]`. */
module Tags {
  import opened Strings

  /** The separator the tag field shows between two tags. */
  const Separator: string := ", "

  /** The separator holds one comma. */
  lemma SeparatorComma()
    ensures multiset(Separator)[','] == 1
  {
    assert Separator == [','] + [' '];
  }

  /** The text the tag field shows for a tag list. */
  function Display(tags: seq<string>): (r: string)
    ensures tags == [] ==> r == ""
    ensures |tags| >= 1 ==> multiset(r)[','] == Occurrences(tags, ',') + |tags| - 1
  {
    if |tags| == 0 then Join(tags, Separator)
    else
      var r := Join(tags, Separator);
      JoinCount(tags, Separator, ',');
      SeparatorComma();
      r
  }

  /** Applies `f` to every element, keeping the order. */
  function MapSeq<A, B>(f: A -> B, s: seq<A>): (r: seq<B>)
    ensures |r| == |s|
    ensures forall i :: 0 <= i < |r| ==> r[i] == f(s[i])
    decreases |s|
  {
    if |s| == 0 then [] else [f(s[0])] + MapSeq(f, s[1..])
  }

  /** Strips every field. */
  function StripAll(fields: seq<string>): (r: seq<string>)
    ensures |r| == |fields|
    ensures forall i :: 0 <= i < |r| ==> r[i] == Strip(fields[i])
  {
    MapSeq(Strip, fields)
  }

  /** Stripping a field in front of others. */
  lemma StripAllCons(f: string, fields: seq<string>)
    ensures StripAll([f] + fields) == [Strip(f)] + StripAll(fields)
  {
    assert ([f] + fields)[1..] == fields;
  }

  /** Every stripped field is trimmed. */
  lemma StripAllTrims(fields: seq<string>)
    ensures forall i :: 0 <= i < |fields| ==> IsTrimmed(StripAll(fields)[i])
  {
    forall i | 0 <= i < |fields|
      ensures IsTrimmed(StripAll(fields)[i])
    {
      assert StripAll(fields)[i] == Strip(fields[i]);
    }
  }

  /** Stripping fields that lack `c` leaves tags that lack `c`. */
  lemma StripAllKeepsAbsent(fields: seq<string>, c: char)
    requires forall i :: 0 <= i < |fields| ==> c !in fields[i]
    ensures forall i :: 0 <= i < |fields| ==> c !in StripAll(fields)[i]
  {
    forall i | 0 <= i < |fields|
      ensures c !in StripAll(fields)[i]
    {
      StripKeepsAbsent(fields[i], c);
    }
  }

  /** The tag list read back from the tag field: one tag per comma-separated
      field, so one more than the commas; each tag trimmed and comma-free;
      the empty field gives the one empty tag. */
  function Parse(text: string): (r: seq<string>)
    ensures forall i :: 0 <= i < |r| ==> IsTrimmed(r[i]) && ',' !in r[i]
  {
    var fields := Split(text, ',');
    StripAllKeepsAbsent(fields, ',');
    StripAllTrims(fields);
    StripAll(fields)
  }

  /** The tag field yields one tag per comma-separated field, so one more
      tag than it has commas; the empty field gives the one empty tag. */
  lemma ParseCount(text: string)
    ensures |Parse(text)| == multiset(text)[','] + 1
    ensures text == "" ==> Parse(text) == [""]
  {
    SplitCount(text, ',');
  }

  /** The tags are what `Parse` can return unchanged: at least one, each
      trimmed and without a comma. */
  predicate Normal(tags: seq<string>) {
    && |tags| >= 1
    && forall i :: 0 <= i < |tags| ==> IsTrimmed(tags[i]) && ',' !in tags[i]
  }

  /** Whitespace in front of the tag text does not change the tags read. */
  lemma ParseLeadingSpace(c: char, text: string)
    requires IsSpace(c)
    ensures Parse([c] + text) == Parse(text)
  {
    var rest := Split(text, ',');
    assert c != ',';
    SplitCons(c, text, ',');
    StripAllCons([c] + rest[0], rest[1..]);
    StripAllCons(rest[0], rest[1..]);
    HeadTail(rest);
    StripLeadingSpace(c, rest[0]);
  }

  /** A comma-free field followed by a comma yields that field stripped,
      then the tags of the remainder. */
  lemma ParseField(field: string, text: string)
    requires ',' !in field
    ensures Parse(field + [','] + text) == [Strip(field)] + Parse(text)
  {
    SplitField(field, ',', text);
  }

  /** The shown text of two or more tags: the first tag, a comma, then a
      space in front of the shown text of the others. */
  lemma DisplayCons(tags: seq<string>)
    requires |tags| >= 2
    ensures Display(tags) == tags[0] + [','] + ([' '] + Display(tags[1..]))
  {
    var rest := Display(tags[1..]);
    assert Display(tags) == tags[0] + Separator + rest;
    assert Separator == [','] + [' '];
  }

  /** Reading back the shown text of comma-free tags strips each tag. */
  lemma {:induction false} ParseDisplay(tags: seq<string>)
    requires |tags| >= 1
    requires forall i :: 0 <= i < |tags| ==> ',' !in tags[i]
    ensures Parse(Display(tags)) == StripAll(tags)
    decreases |tags|
  {
    if |tags| == 1 {
      SplitPlain(tags[0], ',');
    } else {
      var rest := Display(tags[1..]);
      ParseDisplay(tags[1..]);
      DisplayCons(tags);
      ParseField(tags[0], [' '] + rest);
      ParseLeadingSpace(' ', rest);
    }
  }

  /** Trimmed tags are unchanged by stripping. */
  lemma StripAllTrimmed(tags: seq<string>)
    requires forall i :: 0 <= i < |tags| ==> IsTrimmed(tags[i])
    ensures StripAll(tags) == tags
  {
    forall i | 0 <= i < |tags|
      ensures StripAll(tags)[i] == tags[i]
    {
      StripFixedPoint(tags[i]);
    }
  }

  /** The no-tag list is shown as the empty text, which reads back as one
      empty tag rather than no tags. */
  lemma DisplayEmpty()
    ensures Display([]) == ""
    ensures Parse(Display([])) == [""]
  {
  }

  /** Showing tags and reading them back gives the same tags exactly when
      there is at least one tag and every tag is trimmed and comma-free. */
  lemma DisplayParseRoundTrip(tags: seq<string>)
    ensures Parse(Display(tags)) == tags <==> Normal(tags)
  {
    if Normal(tags) {
      NormalRoundTrip(tags);
    }
  }

  /** When the shown text has one comma fewer than there are tags, only
      the separators hold commas. */
  lemma CommaFree(tags: seq<string>)
    requires |tags| >= 1 && |tags| == multiset(Display(tags))[','] + 1
    ensures forall i :: 0 <= i < |tags| ==> ',' !in tags[i]
  {
    OccurrencesZero(tags, ',');
  }

  /** Normal tags survive showing and reading back. */
  lemma NormalRoundTrip(tags: seq<string>)
    requires Normal(tags)
    ensures Parse(Display(tags)) == tags
  {
    ParseDisplay(tags);
    StripAllTrimmed(tags);
  }

  /** Saving the tag field and reopening the snippet shows text that reads
      back to the same tags: one save normalises the field for good. */
  lemma ParseStable(text: string)
    ensures Parse(Display(Parse(text))) == Parse(text)
  {
    var tags := Parse(text);
    assert Normal(tags);
    DisplayParseRoundTrip(tags);
  }
}

=== FILE: wrappers.dfy ===
/** Failure-carrying datatypes shared by the snippet vault model. */
module Wrappers {

  /** A value that may be missing: a JSON field that is not there, a dialog
      that was cancelled, a selection that is empty. */
  datatype Option<+T> = None | Some(value: T) {

    /** The carried value, or `default` when there is none. */
    function GetOr(default: T): T
    {
      match this
      case Some(v) => v
      case None => default
    }
  }

  /** The outcome of an operation that may raise. */
  datatype Result<+R, +E> = Success(value: R) | Failure(error: E)
}
